=== FILE: README.md ===
# supercell-api-generator, the decision core

The program registers a throw-away account on the developer portals of
Supercell's games (Brawl Stars, Clash of Clans, Clash Royale) and creates an
API key for each one. It asks for the games and the IPs to whitelist. It makes
up a fake name and a password and opens a temporary mailbox. Then it posts a
register request per game, two seconds apart. Meanwhile it watches the
mailbox: every welcome mail carries an activation link. From that link it
reads the game and the token, then verifies the account, logs in and creates
a key whose CIDR ranges are the whitelisted IPs. At the end it prints the key.

This project models, in Dafny, the pure decisions of `index.js`:

- the IP validator of the whitelist prompt (`IpList`);
- the `gamesDomains` table and the slug names of the games (`Games`);
- how the fake name and the password are shaped from their random draws
  (`Credentials`);
- the mail correlator, which turns a mail into "no event" or a (game, token)
  activation event (`Correlator`);
- the `fetch` wrapper's body decoding, the `... != "ok"` guard, the
  diagnostic it prints and the key it extracts (`Responses`);
- the four POST requests and their JSON bodies (`Portal`);
- the verify → login → key chain against the portal's replies (`Activation`);
- the registration loop (`Registration`);
- the mail-arrival handler end to end (`Session`).

JavaScript semantics the decisions depend on are written out:

- `String.prototype.split` with a string separator, and `trim` (`JsStrings`);
- truthiness, `?.`, `a || b || …`, and the loose `!=` (`JsValues`).

Under the loose `!=`, a reply whose `status.message` is `["ok"]` counts as
"ok".

The portal's replies are given to the model as a scripted sequence, one per
request and in order. A sequence that ends before a request is answered
leaves the run `Waiting`. Random draws are parameters.

Two places in `index.js` do not do what they evidently mean to (see
"## Findings"): the `fetch` wrapper rejects on a reply that is not JSON, and
the correlator lets a mail for an unknown portal through. Each is modelled
twice:

- as written (`Responses.DecodeAsWritten`, `Responses.FetchAsWritten`,
  `Correlator.CorrelateAsWritten`, `Activation.RunPipelineAsWritten`,
  `Registration.RegisterAsWritten`, `Session.HandleArrivalAsWritten`);
- as intended (`Responses.Decode`, `Responses.Fetch`, `Correlator.Correlate`,
  `Activation.RunPipeline`, `Registration.Register`, `Session.HandleArrival`).

A lemma for each pair says where the two agree (while every reply is JSON,
and for every mail of a game in the domain table) and what the version as
written does elsewhere.

When the key is printed, `chalk.yellow` turns it into a string. A key object
with its own `toString` member makes that conversion throw, and the handler
then rejects instead of printing; the model ends such a run aborted at the
key stage.

The source's header comment promises a password of 16 characters with some
upper-case ones. The code does not guarantee that. `Math.random().toString(36).substring(2, 10)`
can be shorter than eight characters, and every draw may be below 0.7, which
leaves the password with no upper case at all. The model follows the code
(`Credentials.FoldCanLeaveNoUppercase`).

## Model

| member | source | states |
|---|---|---|
| JsStrings.Split | index.js:77 | `split` with a string separator: at least one piece; the pieces joined by the separator give back the input; no piece contains the separator |
| JsStrings.SplitOnePiece | index.js:77 | `split` gives a single piece exactly when the separator does not occur |
| JsStrings.Trim | index.js:77 | `trim` removes exactly the leading and trailing ECMAScript whitespace: what remains is an infix of the input, with only whitespace around it and no whitespace at either end |
| JsValues.FirstTruthy | index.js:192 | an `a \|\| b \|\| … \|\| last` chain yields the first truthy candidate, or `last` when none is truthy |
| JsValues.OkDoesNotThrow | index.js:192 | a value loosely equal to "ok" converts to a primitive without throwing |
| IpList.CidrRanges | index.js:77 | one range per comma-separated piece, in order; each range is its piece trimmed, `Trim` of that piece: only whitespace lies around it within the piece and neither of its ends is whitespace; no range holds a comma |
| IpList.IpPatternBySplit | index.js:79 | the split-into-four-digit-groups test accepts exactly the strings the pattern `^(\d{1,3}\.){3}\d{1,3}$` matches |
| IpList.SplitDotted | index.js:79 | four digit groups joined by dots split back into those four groups |
| IpList.AllMatch | index.js:78-80 | the loop answers true exactly when every range matches the pattern |
| IpList.Validate | index.js:75-82 | an empty answer is refused with the empty-answer message; any other answer is accepted exactly when every trimmed piece matches, and is otherwise refused with the invalid-address message |
| IpList.AddressMatches | index.js:79 | four digit groups joined by dots match the pattern, hold no comma and are left unchanged by `trim` |
| IpList.OneRange | index.js:77 | an answer without a comma is a single range, itself trimmed |
| IpList.TwoRanges | index.js:77 | two comma-free pieces joined by a comma give two ranges |
| IpList.TwoValid | index.js:77-80 | two pieces whose trimmed forms match are accepted together |
| IpList.SpacedListAccepted | index.js:77-80 | `a, b` with a space after the comma is accepted whenever `a` and `b` are addresses |
| IpList.NoRangeCheck | index.js:79 | there is no range check on the groups: `999.999.999.999` is accepted |
| IpList.TrailingCommaRefused | index.js:77-80 | a trailing comma leaves an empty piece, so the answer is refused |
| Games.Domain | index.js:110-114 | a game has a domain exactly when it is one of the three table keys |
| Games.GameOfSlug | index.js:179 | each of the three slugs names its own game, and only that slug names it; anything else, including no slug, is "Unknown game", which is never empty |
| Games.DomainsDistinct | index.js:110-114 | two different games of the table have different domains |
| Credentials.Capitalize | index.js:133 | capitalising keeps the length |
| Credentials.CapitalizeShape | index.js:132-133 | the name keeps its length, starts with a capital when its first digit is a letter, lower-cases back to the base-36 digits, and capitalising it again changes nothing |
| Credentials.Fold | index.js:139 | folding keeps the length |
| Credentials.FoldLowersBack | index.js:139 | folding only upper-cases: lower-casing the result gives the lower-cased input, so base-36 input comes back exactly |
| Credentials.Password | index.js:138-140 | the password is as long as the two bases plus the suffix; it ends with the chosen suffix; lower-casing what comes before the suffix gives the lower-cased bases |
| Credentials.PasswordShape | index.js:138-140 | the password is the folded bases followed by one of the four suffixes; its length is the bases' length plus one or two, and its body lower-cases back to the bases |
| Credentials.FoldCanLeaveNoUppercase | index.js:139 | when no draw picks upper case, the body of the password has no capital letter |
| Correlator.MatchLink | index.js:175 | the first match of `https://developer\.[^"]+` is the leftmost occurrence of the prefix, extended by the longest run of characters that are not a quote |
| Correlator.ActivationLine | index.js:175-176 | a mail has an activation line exactly when its text holds a portal link; the line is the first portal link read up to its first line break, or all of it when there is none, so it starts with `https://developer.`, occurs in the text and holds no quote and no line break |
| Correlator.TokenOf | index.js:177 | a line yields a token exactly when it contains `verify/`; the token is what follows the first `verify/`, read up to the next `verify/` or quote, or to the end of the line |
| Correlator.SlugOf | index.js:178 | a line yields a slug exactly when it contains `https://developer.`; the slug is what follows the first such prefix, read up to the next prefix or `.com`, or to the end of the line |
| Correlator.CorrelateAsWritten | index.js:164-183 | an event exactly when the subject contains "Welcome to the " and the activation line yields a non-empty token; an event's token is the one read from the activation line, and it follows a `verify/` of the mail text; its game is the slug's name, either a table game or "Unknown game" |
| Correlator.Correlate | index.js:164-187 | an event exactly when the handler as written yields one for a game of the domain table, and then the same event; every event's game has a domain |
| Correlator.NoMarkerNoEvent | index.js:175-183 | a mail with no activation line, or whose activation line holds no `verify/`, yields no event, whatever else its text holds |
| Correlator.SlugOfGame | index.js:110-114 | each table game's domain is `https://developer.<slug>.com` for a slug that names that game back |
| Correlator.RegisteredLinkRoundTrip | index.js:164-183 | a welcome mail carrying `<domain>/#/verify/<token>"` for a table game correlates to exactly that game and token |
| Correlator.CorrelateMailShape | index.js:175-183 | a welcome mail whose text is a link-free preamble, then `https://developer.<slug>.com<mid>verify/<token>`, then a quote, a line break or the end, yields (the slug's game, the token), or no event when the token is empty |
| Correlator.TokenStopsAtNextMarker | index.js:177 | a second `verify/` ends the token: a line `<head>verify/<token>verify/<more>` with no marker in the head and no quote or marker in the token yields that token |
| Correlator.LineOfMail | index.js:175-176 | a mail whose text is a link-free preamble, `https://developer.` and text with no quote or line break, then a quote, a line break or the end, has that link as its activation line: the match may run past a line break, and the cut at the first break brings it back |
| JsStrings.FirstPieceBefore | index.js:176 | the first piece of a split is the text before the separator's first occurrence, or all of it |
| JsStrings.PrefixBeforeUnique | index.js:176-178 | a text has one prefix that runs up to the first occurrence of either of two separators |
| Correlator.BrawlStarsWelcome | index.js:164-183 | the Brawl Stars welcome mail with token `ABC123` yields (Brawl Stars, ABC123) |
| Correlator.EmptyTokenNoEvent | index.js:177-183 | the Brawl Stars welcome mail whose link ends right after `verify/` has an empty token, so it yields no event |
| Correlator.UnknownSlugPassesGuard | index.js:179-183 | as written, a welcome mail for a portal outside the slug table yields an "Unknown game" event; the corrected correlator yields none |
| Responses.NonJsonBodyRejectsAsWritten | index.js:100-104 | as written, a non-JSON body makes the wrapper reject, because `text()` is called on a body `json()` has already read; only a null body reaches the fallback |
| Responses.DecodeAsWritten | index.js:98-104 | as written, decoding fails exactly on a body that is not JSON; a JSON body gives its value; a null body gives the fallback object with an empty message |
| Responses.Decode | index.js:100-104 | a JSON body decodes to its value; any other body decodes to an object whose `status.message` is the body's text |
| Responses.DecodeAgreesAsWritten | index.js:100-104 | wherever the wrapper as written settles, it settles to the intended decoding; it fails exactly on a non-JSON body |
| Responses.Fetch | index.js:98-106 | the wrapper rejects exactly when the request fails; otherwise it hands on the decoded body and the `set-cookie` header |
| Responses.FetchAsWritten | index.js:98-106 | as written, the wrapper rejects exactly when the request fails or the body is not JSON; whenever it settles, it settles as the intended wrapper does |
| Responses.Diagnostic | index.js:192 | the reported text is the first truthy of `description`, `error`, `status.message` and `status`, or else the reply itself; a truthy reply always gives a truthy diagnostic |
| Responses.Report | index.js:192 | the error branch either reports or throws; it never passes |
| Responses.Classify | index.js:192 | the guard passes exactly a non-nullish reply that names no error or description and whose `status.message` loosely equals "ok"; a rejection carries the diagnostic; it throws exactly on a nullish reply or on a value that cannot be converted to a string |
| Responses.ExtractKey | index.js:216 | the printed key is `key.key` when truthy, else `key` when truthy, else the reply itself; a truthy reply always gives a truthy key |
| Responses.NonJsonVerdict | index.js:100-104 | a non-JSON body passes exactly when its text is "ok"; otherwise the text is the diagnostic, or the `status` object when the text is empty |
| Responses.JsonStringNeverSucceeds | index.js:192 | a reply that is a JSON string, even "ok", never passes the guard |
| Responses.ObjectDiagnosticTruthy | index.js:192 | the diagnostic of an object reply is truthy |
| Responses.SuccessKeyTruthy | index.js:192-216 | after a reply passes, the printed key is truthy |
| Responses.NestedKeyExtracted | index.js:216 | `{ status: { message: "ok" }, key: { key: k } }` prints `k` |
| Responses.FlatKeyExtracted | index.js:216 | `{ key: k }` prints `k` |
| Responses.WrappedOkSucceeds | index.js:192 | a `status.message` of `["ok"]` passes the loose comparison |
| Responses.NullReplyThrows | index.js:192 | a `null` reply makes the guard throw |
| Portal.OneAccountThroughout | index.js:189-228 | the login request repeats the e-mail address of the register request and the password of the verify request |
| Portal.EndpointsDistinct | index.js:187-224 | the four endpoints are different URLs, each starting with the game's domain |
| Portal.RegisterRequest | index.js:224-231 | the register POST goes to the register endpoint without a cookie; its body has exactly the fields name, email and `captchaVerified: true`, and no password |
| Portal.VerifyRequest | index.js:187-190 | the verify POST goes to the verify endpoint without a cookie; its body has exactly the fields token, password and `tcAccepted: true`, and no e-mail address |
| Portal.LoginRequest | index.js:196-199 | the login POST goes to the login endpoint without a cookie; its body has exactly the e-mail address and the password |
| Portal.ApiKeyRequest | index.js:206-210 | the key POST goes to the key endpoint and always carries a `Cookie` header: the login cookie, or "null" without one; its body has exactly `name: "generated"`, `description: "no description provided"`, `scopes: null` and `cidrRanges`, one JSON string per trimmed range, in order |
| Portal.BodiesHaveExactlyTheirFields | index.js:187-231 | the register, verify, login and key request bodies have exactly the field names the program writes, no more |
| Portal.CookieHeaderConflatesNull | index.js:200-209 | two login cookies give the same header exactly when they are equal, or when one is missing and the other is the text "null" |
| Activation.SettleFetched | index.js:191-212 | after the `await`, a stage passes exactly when the wrapper settled and the guard passes; it breaks exactly when the wrapper rejected or the guard threw; a refused stage carries the guard's diagnostic |
| Activation.Settle | index.js:187-212 | a stage passes exactly when its reply arrived and passes the guard; it breaks exactly when the request failed or the guard threw |
| Activation.SettleAsWritten | index.js:187-192 | as written, a reply that is not JSON breaks its stage; any other reply settles as the intended stage does |
| Activation.SettleMeans | index.js:187-212 | a passed stage hands on the decoded body and the `set-cookie` header; a refused stage carries the guard's diagnostic |
| Activation.Chain | index.js:185-216 | one to three requests, the verify request first; login only after verify passed; the key request only after login passed, carrying login's cookie; waiting exactly when a request has no settled reply; a failure or abort is the last stage's halt, or, after three passes, an abort at the key stage because the key cannot be converted to a string; success exactly when all three passed and the key converts, with the key read from the last body |
| Activation.Stages | index.js:185-216 | the same chain over any verify request, login request and cookie-to-key-request builder: the same requests, in order, and the same outcomes |
| Activation.StagesReadAwaited | index.js:185-216 | the chain reads a stage only once every earlier stage passed: settlements that agree on the awaited stages give the same run |
| Activation.RunPipeline | index.js:185-216 | one to three requests, the verify request first; waiting exactly when a request is left unanswered; a run that does not succeed names the stage it stopped at |
| Activation.RunPipelineAsWritten | index.js:185-216 | the chain through the wrapper as written: one to three requests, the verify request first; waiting exactly when a request is left unanswered; a run that does not succeed names its stage |
| Activation.RunAgreesAsWritten | index.js:185-216 | while every reply the chain awaits is JSON or has no body, the chain as written is the intended chain; replies after the stage that ends the run do not matter |
| Activation.NonJsonVerifyAbortsAsWritten | index.js:187-192 | as written, a verify reply that is not JSON aborts the run after the verify request alone |
| Activation.NonJsonLoginAbortsAsWritten | index.js:196-202 | as written, a login reply that is not JSON, after a verify reply that passed, aborts the run at the login stage after the verify and login requests |
| Activation.NonJsonKeyAbortsAsWritten | index.js:205-212 | as written, a key reply that is not JSON, after verify and login replies that passed, aborts the run at the key stage after all three requests, the last with the login cookie |
| Activation.RunEndsAtLastStage | index.js:192-216 | a run that fails or aborts ends at its last request, with what that request's reply settled to, or, after three passes, aborts at the key stage with a key that cannot be converted |
| Activation.RunSucceedsWhenAllPass | index.js:192-216 | the key is printed exactly when all three replies pass and the key read from the third reply's body converts to a string; it is that key |
| Activation.LaterRequestsFollowPasses | index.js:192-210 | the login request is issued only after the verify reply passed; the key request only after the login reply passed, with that reply's cookie |
| Activation.KeyRequestThreadsCookie | index.js:200-210 | a key request goes to the key endpoint with the `Cookie` header built from the login reply's `set-cookie`, and carries the trimmed whitelisted ranges |
| Activation.RejectedVerifyStops | index.js:187-192 | a rejected verify reply ends the run after the verify request alone, failed with the diagnostic |
| Registration.Check | index.js:224-233 | a register request's check is missing exactly when the wrapper rejected; otherwise it is the guard's verdict on the reply |
| Registration.Round | index.js:224-235 | a round sends the register request and ends with a 2000 ms pause; it has a third step exactly when the reply was rejected, and that step reports the diagnostic; it sends nothing else |
| Registration.Submit | index.js:220-236 | over what each register request settled to: the requests sent are an initial part of the planned ones; the loop finishes exactly when every request settled and no guard threw, and then it has sent them all; every request after the first follows a 2000 ms pause |
| Registration.Register | index.js:220-236 | against the register replies: the loop finishes exactly when every reply arrives and no guard throws, and then it has sent one request per game, in order; every request after the first follows a 2000 ms pause |
| Registration.RegisterAsWritten | index.js:220-236 | as written, the loop finishes exactly when every reply arrives, is JSON or has no body, and no guard throws; then it has sent one request per game, in order |
| Registration.RejectedReplyReported | index.js:233-235 | a rejected register reply is reported and the loop goes on with the next game |
| Registration.AcceptedReplySilent | index.js:233-235 | an "ok" register reply is passed over silently |
| Registration.ThrowingReplyCrashes | index.js:224-233 | a failed register request, or a guard that throws, ends `main()` right after that request |
| Registration.NonJsonReplyCrashesAsWritten | index.js:224-232 | as written, a register reply that is not JSON ends `main()` right after its request |
| Registration.RegisterAgreesAsWritten | index.js:220-236 | while every register reply is JSON or has no body, the loop as written is the intended loop |
| Session.HandleArrival | index.js:161-217 | a mail without "Welcome to the " in its subject is ignored; a mail starts the chain exactly when it correlates |
| Session.HandleArrivalAsWritten | index.js:161-217 | as written: a mail without "Welcome to the " is ignored; a mail starts a run exactly when the correlator as written yields an event; a table game runs the chain as written; an "Unknown game" aborts at the verify stage |
| Session.ArrivalAgreesAsWritten | index.js:161-217 | while every reply is JSON or has no body, the handler as written and the intended one agree on every mail of a table game and on every ignored mail |
| Session.VerifyTargetsDomain | index.js:187-189 | the verify request of a table game goes to that game's domain and carries the token |
| Session.ArrivalVerifiesAtDomain | index.js:164-189 | a mail that correlates starts the chain with a verify POST to its game's own domain, carrying the token read from its link |
| Session.OkJsonPasses | index.js:192 | `{ status: { message: "ok" }, … }` without `error` or `description` passes the guard |
| Session.OkReplyPasses | index.js:187-200 | such a reply settles as passed, handing on its body and cookie |
| Session.ThreeOksSucceed | index.js:185-216 | three "ok" replies, a cookie on the login reply and `{ key: { key: k } }` on the last: exactly the three requests, the last with that cookie, and `k` printed |
| Session.ClashOfClansActivation | index.js:161-216 | a Clash of Clans welcome mail answered that way ends with `k` printed after the three requests to the Clash of Clans portal |
| Session.UnknownPortalIgnored | index.js:179-187 | a mail the correlator as written turns into an "Unknown game" event makes the handler as written abort at the verify stage, on the URL "undefined/api/verify"; the corrected handler ignores it |
| Session.UndefinedVerifyUrl | index.js:187 | with no domain, the verify URL is "undefined/api/verify" |

## Left out

- Prompts and UI: the game checkbox and its validator (index.js:57-66), the spinner, colours and every log line except the printed key. They are I/O.
- Request headers (`Content-Type`, `User-Agent`, index.js:91-94) and `JSON.stringify` of the body (index.js:96): a request is modelled as its URL, its JSON body value and its cookie.
- JSON parsing: a reply body is given as its text together with its parse (`None` when it is not JSON), not parsed here.
- The temporary mailbox (`Mailjs`: account creation, index.js:145-158, and `getMessage`, index.js:167-169): a mail is modelled as its subject and its text, `None` when the message or its text is missing.
- The `try`/`catch` around the link parsing (index.js:174-182): nothing in the modelled parsing throws for a string text.
- Timing and concurrency: the 2000 ms pause is an action in the trace, not a delay. The `arrive` handler is `async` (index.js:161), so in the program it interleaves with the register loop and with other mails at every `await`. Here each mail's handling is modelled as one uninterrupted run, and that interleaving is not modelled.
- `Math.random`: the draws are parameters. `Credentials.Password` takes its two base strings and its upper-case flags as they are.
- Credentials.PasswordShape: does not state the at-most-eight-character length of each base string that `substring(2, 10)` gives, because the digit strings are parameters.
- Credentials.Capitalize: upper-casing is modelled for ASCII letters only, because the fake name and the password are made of base-36 digits. Its own contract states only the length; `Credentials.CapitalizeShape` states the rest.
- Credentials.Fold: its own contract states only the length; `Credentials.FoldLowersBack` states what folding does to the characters.
- Process-level effects: an exception that rejects `main()` or the handler is an outcome (`Crashed`, `Aborted`); the unhandled-rejection exit of Node is not modelled.
- Responses.Diagnostic: the text the diagnostic is printed as (`[object Object]` for an object) is not modelled; only which value is reported, and whether converting it throws.
- Responses.Fetch: models the wrapper as evidently intended, falling back to the body's text; `Responses.FetchAsWritten` is the wrapper as written, which rejects on a body that is not JSON.
- Responses.NonJsonVerdict: states what the guard makes of the intended fallback object; as written no fallback object is built for a body that is not JSON (`Responses.NonJsonBodyRejectsAsWritten`).
- Activation.Settle: settles through the intended wrapper; `Activation.SettleAsWritten` breaks the stage on a body that is not JSON.
- Registration.Register: runs the loop through the intended wrapper; `Registration.RegisterAsWritten` also ends `main()` on a register reply that is not JSON.
- Session.HandleArrival: uses the corrected correlator and the intended wrapper; `Session.HandleArrivalAsWritten` is the handler as written.
- Activation.RunPipelineAsWritten: its own contract states the same as `Activation.RunPipeline`. The rest is in four lemmas. `Activation.RunAgreesAsWritten` covers runs whose awaited replies are all JSON. Otherwise the first awaited reply that is not JSON follows stages that all passed, and `Activation.NonJsonVerifyAbortsAsWritten`, `Activation.NonJsonLoginAbortsAsWritten` and `Activation.NonJsonKeyAbortsAsWritten` give the abort at that stage.
- Activation.RunPipeline: states only the request count, the first request, the waiting case and the stage; the rest of the chain's contract is in `Activation.Chain` and the lemmas below it.

## Findings

| source | as written | input that shows it | evidently intended | confidence | as-written member | corrected member |
|---|---|---|---|---|---|---|
| index.js:179-187 | an unknown slug becomes "Unknown game", a truthy string, so the `!game` guard never fires and `fetch` is called on the relative URL `undefined/api/verify`, which the URL parser refuses without a base, so the handler rejects | a welcome mail with the link `https://developer.squadbusters.com/#/verify/T1"` | ignore mails for portals the program has no domain for | not executed | Correlator.UnknownSlugPassesGuard | Correlator.Correlate |
| index.js:100-104 | `data.json()` reads the body, so the `data.text()` in the catch rejects on the already-read body (section "consume body" of the Fetch Standard); the fallback object is never built for a non-JSON body | a reply whose body is the text `ok` | fall back to `{ status: { message: text } }` with the body's text | not executed | Responses.NonJsonBodyRejectsAsWritten | Responses.Decode |

=== FILE: activation.dfy ===
/** The mail handler's verify, login and API-key chain for one activation
    event. Each `await fetch(...)` and the guard after it settle to a
    `Settled` value; the chain is a function of those values, and the
    replies the portal sends, in the order they arrive, decide them. */
module Activation {
  import opened Wrappers
  import opened JsValues
  import opened Responses
  import opened Portal
  import opened Correlator

  datatype Stage = Verifying | LoggingIn | CreatingKey

  /** The stage whose request is the `n`-th one the handler issues. */
  function StageOf(n: nat): Stage {
    if n <= 1 then Verifying else if n == 2 then LoggingIn else CreatingKey
  }

  /** How the handler ends: the key is printed; a stage's reply is
      reported and the handler returns; a stage throws, so the handler's
      promise rejects; or a stage's reply has not arrived yet. */
  datatype Outcome =
    | Succeeded(key: JsValue)
    | Failed(stage: Stage, diagnostic: JsValue)
    | Aborted(stage: Stage)
    | Waiting(stage: Stage)

  /** The fetch calls made, in order, and the outcome. */
  datatype Run = Run(requests: seq<Request>, outcome: Outcome)

  /** What one `await fetch(...)` and the guard after it leave: the reply
      passed, handing on its body and its `set-cookie` header; the guard
      rejected it and printed the diagnostic; or the `await` threw. */
  datatype Settled = Passed(json: JsValue, cookies: Option<string>) | Refused(diagnostic: JsValue) | Broke

  /** The guard applied to what the wrapper settled to: `None` is a
      rejected `await`. */
  function SettleFetched(f: Option<Fetched>): (s: Settled)
    ensures s.Passed? <==> f.Some? && Classify(f.value.json).Ok?
    ensures s.Broke? <==> f.None? || Classify(f.value.json).Threw?
    ensures s.Passed? ==> s == Passed(f.value.json, f.value.cookies)
    ensures s.Refused? ==> Classify(f.value.json) == Rejected(s.diagnostic)
  {
    match f
    case None => Broke
    case Some(x) =>
      match Classify(x.json)
      case Ok(j) => Passed(j, x.cookies)
      case Rejected(d) => Refused(d)
      case Threw => Broke
  }

  /** A stage through the intended wrapper. */
  function Settle(reply: Reply): (s: Settled)
    ensures s.Passed? <==> reply.Reply? && Classify(Decode(reply.body)).Ok?
    ensures s.Broke? <==> reply.NetworkError? || Classify(Decode(reply.body)).Threw?
  {
    SettleFetched(Fetch(reply))
  }

  /** A stage through the wrapper as written: a reply whose body is not
      JSON makes the `await` throw; any other reply settles as through the
      intended wrapper. */
  function SettleAsWritten(reply: Reply): (s: Settled)
    ensures NonJson(reply) ==> s == Broke
    ensures !NonJson(reply) ==> s == Settle(reply)
  {
    SettleFetched(FetchAsWritten(reply))
  }

  /** A stage that passes hands on the decoded body and the `set-cookie`
      header; one that is refused carries the guard's diagnostic. */
  lemma SettleMeans(reply: Reply)
    ensures Settle(reply).Passed? ==> Settle(reply) == Passed(Decode(reply.body), reply.setCookie)
    ensures Settle(reply).Refused? ==> reply.Reply? && Classify(Decode(reply.body)) == Rejected(Settle(reply).diagnostic)
  {
  }

  /** How a stage that did not pass ends the run. */
  function Halt(stage: Stage, s: Settled): (o: Outcome)
    requires !s.Passed?
    ensures o.Failed? <==> s.Refused?
    ensures o.Aborted? <==> s.Broke?
    ensures o.stage == stage
    ensures o.Failed? ==> o.diagnostic == s.diagnostic
  {
    if s.Refused? then Failed(stage, s.diagnostic) else Aborted(stage)
  }

  /** The chain of `await`s and guards over the stages settled so far
      (`settled[k]` for the (k+1)-th request): a stage that did not pass
      ends the run, so no later request is issued; the key request
      carries the cookie handed on by the login stage; the printed key is
      read from the last stage's body. Printing it goes through
      `chalk.yellow`, which turns its one argument into a string with
      `'' + key`: a key that cannot be converted throws there, after
      the key was created. */
  function Chain(e: ActivationEvent, id: Identity, ips: string, settled: seq<Settled>): (r: Run)
    ensures 1 <= |r.requests| <= 3
    ensures r.requests[0] == VerifyRequest(e.game, e.token, id)
    ensures |r.requests| >= 2 ==> |settled| >= 1 && settled[0].Passed? && r.requests[1] == LoginRequest(e.game, id)
    ensures |r.requests| == 3 ==> |settled| >= 2 && settled[1].Passed?
                                  && r.requests[2] == ApiKeyRequest(e.game, ips, settled[1].cookies)
    ensures r.outcome.Waiting? <==> |settled| < |r.requests|
    ensures !r.outcome.Succeeded? ==> r.outcome.stage == StageOf(|r.requests|)
    ensures (r.outcome.Failed? || r.outcome.Aborted?) ==>
              && |r.requests| <= |settled|
              && (!settled[|r.requests| - 1].Passed? ==> r.outcome == Halt(StageOf(|r.requests|), settled[|r.requests| - 1]))
              && (settled[|r.requests| - 1].Passed? ==>
                    && |r.requests| == 3 && r.outcome == Aborted(CreatingKey)
                    && ConversionThrows(ExtractKey(settled[2].json)))
    ensures r.outcome.Succeeded? <==>
              && |settled| >= 3 && settled[0].Passed? && settled[1].Passed? && settled[2].Passed?
              && !ConversionThrows(ExtractKey(settled[2].json))
    ensures r.outcome.Succeeded? ==> |r.requests| == 3 && r.outcome.key == ExtractKey(settled[2].json)
  {
    Stages(VerifyRequest(e.game, e.token, id), LoginRequest(e.game, id), c => ApiKeyRequest(e.game, ips, c), settled)
  }

  /** The same chain over any three planned requests, the last built
      from the cookie the login stage hands on. */
  function Stages(verify: Request, login: Request, keyFor: Option<string> -> Request, settled: seq<Settled>): (r: Run)
    ensures 1 <= |r.requests| <= 3
    ensures r.requests[0] == verify
    ensures |r.requests| >= 2 ==> |settled| >= 1 && settled[0].Passed? && r.requests[1] == login
    ensures |r.requests| == 3 ==> |settled| >= 2 && settled[1].Passed?
                                  && r.requests[2] == keyFor(settled[1].cookies)
    ensures r.outcome.Waiting? <==> |settled| < |r.requests|
    ensures !r.outcome.Succeeded? ==> r.outcome.stage == StageOf(|r.requests|)
    ensures (r.outcome.Failed? || r.outcome.Aborted?) ==>
              && |r.requests| <= |settled|
              && (!settled[|r.requests| - 1].Passed? ==> r.outcome == Halt(StageOf(|r.requests|), settled[|r.requests| - 1]))
              && (settled[|r.requests| - 1].Passed? ==>
                    && |r.requests| == 3 && r.outcome == Aborted(CreatingKey)
                    && ConversionThrows(ExtractKey(settled[2].json)))
    ensures r.outcome.Succeeded? <==>
              && |settled| >= 3 && settled[0].Passed? && settled[1].Passed? && settled[2].Passed?
              && !ConversionThrows(ExtractKey(settled[2].json))
    ensures r.outcome.Succeeded? ==> |r.requests| == 3 && r.outcome.key == ExtractKey(settled[2].json)
  {
    if |settled| == 0 then Run([verify], Waiting(Verifying))
    else if !settled[0].Passed? then Run([verify], Halt(Verifying, settled[0]))
    else if |settled| == 1 then Run([verify, login], Waiting(LoggingIn))
    else if !settled[1].Passed? then Run([verify, login], Halt(LoggingIn, settled[1]))
    else
      var apiKey := keyFor(settled[1].cookies);
      if |settled| == 2 then Run([verify, login, apiKey], Waiting(CreatingKey))
      else if !settled[2].Passed? then Run([verify, login, apiKey], Halt(CreatingKey, settled[2]))
      else
        var key := ExtractKey(settled[2].json);
        if ConversionThrows(key) then Run([verify, login, apiKey], Aborted(CreatingKey))
        else Run([verify, login, apiKey], Succeeded(key))
  }

  /** The chain reads only the stages it awaits: two settlement sequences
      that agree on those give the same run. */
  lemma StagesReadAwaited(verify: Request, login: Request, keyFor: Option<string> -> Request, a: seq<Settled>, b: seq<Settled>)
    requires |a| == |b|
    requires forall k :: 0 <= k < |b| && k < |Stages(verify, login, keyFor, b).requests| ==> a[k] == b[k]
    ensures Stages(verify, login, keyFor, a) == Stages(verify, login, keyFor, b)
  {
    var n := |Stages(verify, login, keyFor, b).requests|;
    if |b| > 0 { assert a[0] == b[0]; }
    if |b| > 1 && b[0].Passed? { assert a[1] == b[1]; }
    if |b| > 2 && b[0].Passed? && b[1].Passed? { assert a[2] == b[2]; }
  }

  /** The stages the replies settle, in order: the k-th reply answers the
      (k+1)-th request; replies beyond the third are never awaited. */
  function Settlements(replies: seq<Reply>): (s: seq<Settled>)
    ensures |s| == if |replies| < 3 then |replies| else 3
    ensures forall k :: 0 <= k < |s| ==> s[k] == Settle(replies[k])
  {
    var n := if |replies| < 3 then |replies| else 3;
    seq(n, k requires 0 <= k < n => Settle(replies[k]))
  }

  /** The handler from the activation request on, against the portal's
      replies, through the intended wrapper. */
  function RunPipeline(e: ActivationEvent, id: Identity, ips: string, replies: seq<Reply>): (r: Run)
    ensures 1 <= |r.requests| <= 3
    ensures r.requests[0] == VerifyRequest(e.game, e.token, id)
    ensures r.outcome.Waiting? <==> |replies| < |r.requests|
    ensures !r.outcome.Succeeded? ==> r.outcome.stage == StageOf(|r.requests|)
  {
    Chain(e, id, ips, Settlements(replies))
  }

  /** The stages the replies settle through the wrapper as written. */
  function SettlementsAsWritten(replies: seq<Reply>): (s: seq<Settled>)
    ensures |s| == if |replies| < 3 then |replies| else 3
    ensures forall k :: 0 <= k < |s| ==> s[k] == SettleAsWritten(replies[k])
  {
    var n := if |replies| < 3 then |replies| else 3;
    seq(n, k requires 0 <= k < n => SettleAsWritten(replies[k]))
  }

  /** The handler from the activation request on, through the wrapper as
      written. */
  function RunPipelineAsWritten(e: ActivationEvent, id: Identity, ips: string, replies: seq<Reply>): (r: Run)
    ensures 1 <= |r.requests| <= 3
    ensures r.requests[0] == VerifyRequest(e.game, e.token, id)
    ensures r.outcome.Waiting? <==> |replies| < |r.requests|
    ensures !r.outcome.Succeeded? ==> r.outcome.stage == StageOf(|r.requests|)
  {
    Chain(e, id, ips, SettlementsAsWritten(replies))
  }

  /** The two wrappers part ways only on a body that is not JSON: while
      every reply is JSON (or has no body), the run as written is the
      intended run. */
  lemma {:induction false} RunAgreesAsWritten(e: ActivationEvent, id: Identity, ips: string, replies: seq<Reply>)
    requires forall k :: 0 <= k < |replies| && k < |RunPipeline(e, id, ips, replies).requests| ==> !NonJson(replies[k])
    ensures RunPipelineAsWritten(e, id, ips, replies) == RunPipeline(e, id, ips, replies)
  {
    var a := SettlementsAsWritten(replies);
    var b := Settlements(replies);
    var verify := VerifyRequest(e.game, e.token, id);
    var login := LoginRequest(e.game, id);
    var keyFor := c => ApiKeyRequest(e.game, ips, c);
    assert RunPipeline(e, id, ips, replies) == Stages(verify, login, keyFor, b);
    forall k | 0 <= k < |b| && k < |Stages(verify, login, keyFor, b).requests|
      ensures a[k] == b[k]
    {
      assert !NonJson(replies[k]);
    }
    StagesReadAwaited(verify, login, keyFor, a, b);
    assert RunPipelineAsWritten(e, id, ips, replies) == Stages(verify, login, keyFor, a);
  }

  /** As written, a verify reply whose body is not JSON, an "ok" text
      included, makes the handler throw: the run aborts at the verify
      stage. */
  lemma NonJsonVerifyAbortsAsWritten(e: ActivationEvent, id: Identity, ips: string, reply: Reply, rest: seq<Reply>)
    requires NonJson(reply)
    ensures RunPipelineAsWritten(e, id, ips, [reply] + rest) == Run([VerifyRequest(e.game, e.token, id)], Aborted(Verifying))
  {
    assert SettlementsAsWritten([reply] + rest)[0] == SettleAsWritten(reply);
  }

  /** As written, a login reply whose body is not JSON, after a verify
      reply that passed, makes the handler throw at the login stage. */
  lemma NonJsonLoginAbortsAsWritten(e: ActivationEvent, id: Identity, ips: string, r0: Reply, r1: Reply, rest: seq<Reply>)
    requires SettleAsWritten(r0).Passed? && NonJson(r1)
    ensures RunPipelineAsWritten(e, id, ips, [r0, r1] + rest)
         == Run([VerifyRequest(e.game, e.token, id), LoginRequest(e.game, id)], Aborted(LoggingIn))
  {
    var s := SettlementsAsWritten([r0, r1] + rest);
    assert s[0] == SettleAsWritten(r0) && s[1] == SettleAsWritten(r1);
  }

  /** As written, a key reply whose body is not JSON, after verify and
      login replies that passed, makes the handler throw at the key
      stage, once the key request carrying the login cookie was made. */
  lemma NonJsonKeyAbortsAsWritten(e: ActivationEvent, id: Identity, ips: string, r0: Reply, r1: Reply, r2: Reply,
                                  rest: seq<Reply>)
    requires SettleAsWritten(r0).Passed? && SettleAsWritten(r1).Passed? && NonJson(r2)
    ensures RunPipelineAsWritten(e, id, ips, [r0, r1, r2] + rest)
         == Run([VerifyRequest(e.game, e.token, id), LoginRequest(e.game, id),
                 ApiKeyRequest(e.game, ips, SettleAsWritten(r1).cookies)],
                Aborted(CreatingKey))
  {
    var s := SettlementsAsWritten([r0, r1, r2] + rest);
    assert s[0] == SettleAsWritten(r0) && s[1] == SettleAsWritten(r1) && s[2] == SettleAsWritten(r2);
  }

  /** A run that fails or aborts ends at its last request, with what that
      request's reply settled to, or, after three passes, at printing a
      key that cannot be converted. */
  lemma {:induction false} RunEndsAtLastStage(e: ActivationEvent, id: Identity, ips: string, replies: seq<Reply>)
    ensures var r := RunPipeline(e, id, ips, replies);
            (r.outcome.Failed? || r.outcome.Aborted?) ==>
              && |r.requests| <= |replies|
              && (|r.requests| == 1 ==> r.outcome == Halt(Verifying, Settle(replies[0])))
              && (|r.requests| == 2 ==> r.outcome == Halt(LoggingIn, Settle(replies[1])))
              && (|r.requests| == 3 && !Settle(replies[2]).Passed? ==> r.outcome == Halt(CreatingKey, Settle(replies[2])))
              && (|r.requests| == 3 && Settle(replies[2]).Passed? ==>
                    r.outcome == Aborted(CreatingKey) && ConversionThrows(ExtractKey(Decode(replies[2].body))))
  {
    var s := Settlements(replies);
    var r := Chain(e, id, ips, s);
    assert RunPipeline(e, id, ips, replies) == r;
    if r.outcome.Failed? || r.outcome.Aborted? {
      if |r.requests| == 1 {
        assert s[0] == Settle(replies[0]);
      } else if |r.requests| == 2 {
        assert s[1] == Settle(replies[1]);
      } else {
        assert s[2] == Settle(replies[2]);
        SettleMeans(replies[2]);
      }
    }
  }

  /** The key is printed exactly when all three replies passed their
      guards and the key read from the last reply's body converts to a
      string. */
  lemma {:induction false} RunSucceedsWhenAllPass(e: ActivationEvent, id: Identity, ips: string, replies: seq<Reply>)
    ensures var r := RunPipeline(e, id, ips, replies);
            && (r.outcome.Succeeded? <==>
                  && |replies| >= 3 && Settle(replies[0]).Passed? && Settle(replies[1]).Passed? && Settle(replies[2]).Passed?
                  && !ConversionThrows(ExtractKey(Decode(replies[2].body))))
            && (r.outcome.Succeeded? ==> |r.requests| == 3 && r.outcome.key == ExtractKey(Decode(replies[2].body)))
  {
    var s := Settlements(replies);
    var r := Chain(e, id, ips, s);
    assert RunPipeline(e, id, ips, replies) == r;
    if |replies| >= 3 {
      assert s[0] == Settle(replies[0]) && s[1] == Settle(replies[1]) && s[2] == Settle(replies[2]);
      SettleMeans(replies[2]);
    }
  }

  /** A request after the first is issued only once the reply before it
      passed its guard: the login request follows the verify request, and
      the key request carries the login reply's cookie. */
  lemma {:induction false} LaterRequestsFollowPasses(e: ActivationEvent, id: Identity, ips: string, replies: seq<Reply>)
    ensures var r := RunPipeline(e, id, ips, replies);
            && (|r.requests| >= 2 ==> |replies| >= 1 && Settle(replies[0]).Passed?
                                      && r.requests[1] == LoginRequest(e.game, id))
            && (|r.requests| == 3 ==> |replies| >= 2 && Settle(replies[1]).Passed? && replies[1].Reply?
                                      && r.requests[2] == ApiKeyRequest(e.game, ips, replies[1].setCookie))
  {
    var s := Settlements(replies);
    if |replies| >= 2 {
      assert s[0] == Settle(replies[0]) && s[1] == Settle(replies[1]);
      SettleMeans(replies[1]);
    } else if |replies| == 1 {
      assert s[0] == Settle(replies[0]);
    }
  }

  /** The key request's cookie is exactly the login reply's `set-cookie`
      (the text "null" when there was none), and its ranges are the
      trimmed pieces of the whitelisted-IP answer. */
  lemma {:induction false} KeyRequestThreadsCookie(e: ActivationEvent, id: Identity, ips: string, replies: seq<Reply>)
    ensures var r := RunPipeline(e, id, ips, replies);
            |r.requests| == 3 ==>
              && |replies| >= 2 && replies[1].Reply?
              && r.requests[2].cookie == Some(CookieHeader(replies[1].setCookie))
              && r.requests[2].url == Endpoint(e.game, ApiKeyPath)
              && Prop(r.requests[2].body, "cidrRanges") == RangesJson(ips)
  {
    LaterRequestsFollowPasses(e, id, ips, replies);
    var r := RunPipeline(e, id, ips, replies);
    if |r.requests| == 3 {
      var body := r.requests[2].body;
      assert body.fields["cidrRanges"] == RangesJson(ips);
    }
  }

  /** A stage that is not answered "ok" ends the run at that stage: the
      verify request alone is issued when the portal rejects it. */
  lemma RejectedVerifyStops(e: ActivationEvent, id: Identity, ips: string, reply: Reply, rest: seq<Reply>)
    requires reply.Reply? && Classify(Decode(reply.body)).Rejected?
    ensures RunPipeline(e, id, ips, [reply] + rest)
         == Run([VerifyRequest(e.game, e.token, id)], Failed(Verifying, Classify(Decode(reply.body)).diagnostic))
  {
    SettleMeans(reply);
    assert Settlements([reply] + rest)[0] == Settle(reply);
  }
}

=== FILE: correlator.dfy ===
/** The mail correlator: from one inbound message to "no event" or an
    activation event (game, token), exactly as the mail-arrival handler
    parses the welcome mail of a developer portal. */
module Correlator {
  import opened Wrappers
  import opened JsStrings
  import opened Games

  /** The subject filter of the handler. */
  const WelcomeMarker := "Welcome to the "
  /** The literal start of the activation-link pattern. */
  const LinkPrefix := "https://developer."
  /** The marker the token follows. */
  const VerifyMarker := "verify/"

  /** An arrived mail: its subject and, when the mailbox returned the full
      message with a text part, that text. `None` stands for both a
      message without `data` and data without `text`: the handler ends
      quietly on either. */
  datatype Message = Message(subject: string, text: Option<string>)

  datatype ActivationEvent = ActivationEvent(game: string, token: string)

  /** `x?.split(sep)?.[k]` */
  function Piece(x: Option<string>, sep: string, k: nat): Option<string>
    requires |sep| > 0
  {
    match x
    case None => None
    case Some(s) =>
      var parts := Split(s, sep);
      if k < |parts| then Some(parts[k]) else None
  }

  /** The pattern /https:\/\/developer\.[^"]+/ has a match starting at
      `i`: the literal prefix is there and at least one non-quote follows. */
  predicate LinkAt(s: string, i: nat) {
    OccursAt(s, LinkPrefix, i) && i + |LinkPrefix| < |s| && s[i + |LinkPrefix|] != '"'
  }

  function FirstLinkFrom(s: string, from: nat): (r: Option<nat>)
    decreases |s| - from
    ensures r.Some? ==> from <= r.value && LinkAt(s, r.value)
    ensures r.Some? ==> forall j: nat :: from <= j < r.value ==> !LinkAt(s, j)
    ensures r.None? ==> forall j: nat :: from <= j ==> !LinkAt(s, j)
  {
    if from >= |s| then None
    else if LinkAt(s, from) then Some(from)
    else FirstLinkFrom(s, from + 1)
  }

  /** Where the greedy run `[^"]+` starting at `from` stops: the first
      quote at or after `from`, or the end of the text. */
  function RunEnd(s: string, from: nat): (e: nat)
    requires from <= |s|
    decreases |s| - from
    ensures from <= e <= |s|
    ensures forall k :: from <= k < e ==> s[k] != '"'
    ensures e == |s| || s[e] == '"'
  {
    if from == |s| || s[from] == '"' then from else RunEnd(s, from + 1)
  }

  /** `link` is the leftmost match of the link pattern in `text`, taken at
      `i` and extended greedily up to the next quote or the end. */
  predicate IsFirstMatch(text: string, i: nat, link: string) {
    && LinkAt(text, i)
    && (forall j: nat :: j < i ==> !LinkAt(text, j))
    && i + |link| <= |text|
    && text[i..i + |link|] == link
    && (forall k :: 0 <= k < |link| ==> link[k] != '"')
    && (i + |link| == |text| || text[i + |link|] == '"')
  }

  /** `text.match(/https:\/\/developer\.[^"]+/g)?.[0]` */
  function MatchLink(text: string): (r: Option<string>)
    ensures r.None? <==> forall i: nat :: !LinkAt(text, i)
    ensures r.Some? ==> exists i: nat :: IsFirstMatch(text, i, r.value)
    ensures r.Some? ==> |LinkPrefix| < |r.value| && r.value[..|LinkPrefix|] == LinkPrefix
  {
    match FirstLinkFrom(text, 0)
    case None => None
    case Some(i) =>
      var e := RunEnd(text, i + |LinkPrefix|);
      FoundLink(text, i, e);
      Some(text[i..e])
  }

  /** The greedy run from a leftmost link start is the first match. */
  lemma FoundLink(text: string, i: nat, e: nat)
    requires LinkAt(text, i)
    requires forall j: nat :: j < i ==> !LinkAt(text, j)
    requires i + |LinkPrefix| <= e <= |text|
    requires forall k :: i + |LinkPrefix| <= k < e ==> text[k] != '"'
    requires e == |text| || text[e] == '"'
    ensures IsFirstMatch(text, i, text[i..e])
    ensures |LinkPrefix| < |text[i..e]| && text[i..e][..|LinkPrefix|] == LinkPrefix
  {
    var link := text[i..e];
    assert link[..|LinkPrefix|] == text[i..i + |LinkPrefix|];
    forall k | 0 <= k < |link|
      ensures link[k] != '"'
    {
      if k < |LinkPrefix| {
        assert link[k] == LinkPrefix[k];
      } else {
        assert link[k] == text[i + k];
      }
    }
  }

  /** The link as the handler keeps it: the match cut at its first line
      break. There is one exactly when the text has a link match; it is
      that match read up to its first line break, so it starts with the
      link prefix, and it is a piece of the text holding no quote and no
      line break. */
  function ActivationLine(m: Message): (r: Option<string>)
    ensures r.Some? <==> m.text.Some? && MatchLink(m.text.value).Some?
    ensures r.Some? ==> PrefixBefore(MatchLink(m.text.value).value, "\n", "\n", r.value)
    ensures r.Some? ==> |LinkPrefix| <= |r.value| && r.value[..|LinkPrefix|] == LinkPrefix
    ensures r.Some? ==> Contains(m.text.value, r.value) && '"' !in r.value && '\n' !in r.value
  {
    match m.text
    case None => None
    case Some(text) =>
      var link := MatchLink(text);
      if link.Some? then
        LineInText(text, link.value);
        Piece(link, "\n", 0)
      else None
  }

  /** The first line of the first link match lies in the text and holds
      no quote and no line break. */
  lemma LineInText(text: string, link: string)
    requires MatchLink(text) == Some(link)
    ensures var line := Split(link, "\n")[0];
            && PrefixBefore(link, "\n", "\n", line)
            && |LinkPrefix| <= |line| && line[..|LinkPrefix|] == LinkPrefix
            && Contains(text, line)
            && '"' !in line
            && '\n' !in line
  {
    var line := Split(link, "\n")[0];
    FirstPieceBefore(link, "\n");
    NoBreakInPrefix(link);
    assert line[..|LinkPrefix|] == link[..|LinkPrefix|];
    var i: nat :| IsFirstMatch(text, i, link);
    assert OccursAt(text, link, i);
    FirstPieceIsPrefix(link, "\n");
    assert line == link[..|line|];
    ContainsPrefixOf(text, link, |line|);
    forall k | 0 <= k < |line|
      ensures line[k] != '"'
    {
      assert line[k] == link[k];
    }
    CharNotContained(line, '\n');
  }

  /** `link?.split("verify/")?.[1]?.split("\"")?.[0]`: there is a token
      exactly when the line holds "verify/"; it is what follows the first
      marker of the line, read up to the next marker or quote, or to the
      end, so it holds no quote and no further marker. */
  function TokenOf(line: Option<string>): (r: Option<string>)
    ensures r.Some? <==> line.Some? && Contains(line.value, VerifyMarker)
    ensures r.Some? ==>
              PrefixBefore(line.value[IndexOf(line.value, VerifyMarker).value + |VerifyMarker|..], VerifyMarker, "\"", r.value)
    ensures r.Some? ==> && Contains(line.value, VerifyMarker + r.value)
                        && '"' !in r.value
                        && !Contains(r.value, VerifyMarker)
  {
    var r := Piece(Piece(line, VerifyMarker, 1), "\"", 0);
    if line.Some? && Contains(line.value, VerifyMarker) then
      MarkedPiece(line.value, VerifyMarker, "\"");
      CharNotContained(r.value, '"');
      TokenCut(line.value);
      r
    else r
  }

  /** The token is the text after the first marker, read up to the next
      marker or quote. */
  lemma TokenCut(line: string)
    requires Contains(line, VerifyMarker)
    ensures |Split(line, VerifyMarker)| >= 2
    ensures PrefixBefore(line[IndexOf(line, VerifyMarker).value + |VerifyMarker|..], VerifyMarker, "\"",
                         Split(Split(line, VerifyMarker)[1], "\"")[0])
  {
    var after := line[IndexOf(line, VerifyMarker).value + |VerifyMarker|..];
    SecondPieceBefore(line, VerifyMarker);
    var p := Split(line, VerifyMarker)[1];
    FirstPieceBefore(p, "\"");
    OneCharInside(after, p, '"');
    CutTwice(after, VerifyMarker, "\"", p, Split(p, "\"")[0]);
  }

  /** `link?.split("https://developer.")?.[1]?.split(".com")?.[0]`: there is
      a slug exactly when the line holds the link prefix; it is what
      follows the first prefix of the line, read up to the next ".com" or
      prefix, or to the end, so it holds neither. */
  function SlugOf(line: Option<string>): (r: Option<string>)
    ensures r.Some? <==> line.Some? && Contains(line.value, LinkPrefix)
    ensures r.Some? ==>
              PrefixBefore(line.value[IndexOf(line.value, LinkPrefix).value + |LinkPrefix|..], LinkPrefix, ".com", r.value)
    ensures r.Some? ==> && Contains(line.value, LinkPrefix + r.value)
                        && !Contains(r.value, ".com")
                        && !Contains(r.value, LinkPrefix)
  {
    var r := Piece(Piece(line, LinkPrefix, 1), ".com", 0);
    if line.Some? && Contains(line.value, LinkPrefix) then
      MarkedPiece(line.value, LinkPrefix, ".com");
      SlugCut(line.value);
      r
    else r
  }

  /** The slug is the text after the first link prefix, read up to the
      next ".com" or prefix. */
  lemma SlugCut(line: string)
    requires Contains(line, LinkPrefix)
    ensures |Split(line, LinkPrefix)| >= 2
    ensures PrefixBefore(line[IndexOf(line, LinkPrefix).value + |LinkPrefix|..], LinkPrefix, ".com",
                         Split(Split(line, LinkPrefix)[1], ".com")[0])
  {
    var after := line[IndexOf(line, LinkPrefix).value + |LinkPrefix|..];
    SecondPieceBefore(line, LinkPrefix);
    var p := Split(line, LinkPrefix)[1];
    FirstPieceBefore(p, ".com");
    ComInside(after, p);
    CutTwice(after, LinkPrefix, ".com", p, Split(p, ".com")[0]);
  }

  /** A ".com" cannot straddle the place where a link prefix starts: none
      of its last three characters is an "h". */
  lemma ComInside(s: string, p: string)
    requires PrefixBefore(s, LinkPrefix, LinkPrefix, p)
    ensures forall j: nat :: j < |p| && OccursAt(s, ".com", j) ==> OccursAt(p, ".com", j)
  {
    forall j: nat | j < |p| && OccursAt(s, ".com", j)
      ensures OccursAt(p, ".com", j)
    {
      ComEndsBefore(s, p, j);
      assert p[j..j + 4] == s[j..j + 4];
    }
  }

  lemma ComEndsBefore(s: string, p: string, j: nat)
    requires PrefixBefore(s, LinkPrefix, LinkPrefix, p)
    requires j < |p| && OccursAt(s, ".com", j)
    ensures j + 4 <= |p|
  {
    if |p| < j + 4 {
      CharOfOccurrence(s, ".com", j, |p|);
    }
  }

  /** A link starts with the link prefix, which holds no line break. */
  lemma NoBreakInPrefix(link: string)
    requires |LinkPrefix| <= |link| && link[..|LinkPrefix|] == LinkPrefix
    ensures forall j: nat :: j < |LinkPrefix| ==> !OccursAt(link, "\n", j)
  {
    forall j: nat | j < |LinkPrefix|
      ensures !OccursAt(link, "\n", j)
    {
      assert link[j] == LinkPrefix[j];
    }
  }

  /** The piece after the first `marker`, cut at the first `cut`, follows
      that marker and holds neither `cut` nor `marker`. */
  lemma MarkedPiece(s: string, marker: string, cut: string)
    requires |marker| > 0 && |cut| > 0 && Contains(s, marker)
    ensures |Split(s, marker)| >= 2
    ensures var t := Split(Split(s, marker)[1], cut)[0];
            && Contains(s, marker + t)
            && !Contains(t, cut)
            && !Contains(t, marker)
  {
    var p := Split(s, marker)[1];
    SecondPieceFollowsSeparator(s, marker);
    CutBefore(p, cut, marker);
    var t := Split(p, cut)[0];
    MarkedPrefix(s, marker, p, t);
  }

  /** Cutting a piece free of `marker` at its first `cut` leaves a prefix
      of it holding neither. */
  lemma CutBefore(p: string, cut: string, marker: string)
    requires |cut| > 0 && !Contains(p, marker)
    ensures var t := Split(p, cut)[0];
            && t == p[..|t|]
            && !Contains(t, cut)
            && !Contains(t, marker)
  {
    var t := Split(p, cut)[0];
    FirstPieceIsPrefix(p, cut);
    ContainsSelf(p);
    ContainsPrefixOf(p, p, |t|);
    if Contains(t, marker) {
      ContainsTransitive(p, t, marker);
    }
  }

  lemma MarkedPrefix(s: string, marker: string, p: string, t: string)
    requires Contains(s, marker + p)
    requires |t| <= |p| && t == p[..|t|]
    ensures Contains(s, marker + t)
  {
    var w := marker + p;
    assert marker + t == w[..|marker| + |t|];
    ContainsPrefixOf(s, w, |marker| + |t|);
  }

  /** A token the correlator can hand on: non-empty, the text of the mail
      holds it right after a `verify/` marker, and it holds no quote, no
      line break and no further marker. */
  predicate TokenFromText(text: string, token: string) {
    && token != ""
    && Contains(text, VerifyMarker + token)
    && '"' !in token
    && '\n' !in token
    && !Contains(token, VerifyMarker)
  }

  /** A non-empty token read from a line of the text, one without a line
      break, comes from that text, right after a `verify/` marker. */
  lemma TokenFacts(text: string, line: string)
    requires Contains(text, line) && '\n' !in line
    requires Contains(line, VerifyMarker)
    ensures TokenOf(Some(line)).value != "" ==> TokenFromText(text, TokenOf(Some(line)).value)
  {
    var t := TokenOf(Some(line)).value;
    var marked := VerifyMarker + t;
    ContainsTransitive(text, line, marked);
    ContainsSuffixOf(line, marked, |VerifyMarker|);
    assert marked[|VerifyMarker|..] == t;
    InfixChars(line, t);
  }

  /** The handler as written: subject filter, link, token, slug, game
      name, then the `!activationToken || !game` guard. */
  function CorrelateAsWritten(m: Message): (r: Option<ActivationEvent>)
    ensures !Contains(m.subject, WelcomeMarker) ==> r.None?
    ensures r.Some? <==>
              && Contains(m.subject, WelcomeMarker)
              && TokenOf(ActivationLine(m)).Some? && TokenOf(ActivationLine(m)).value != ""
    ensures r.Some? ==> r.value.game in KnownGames || r.value.game == UnknownGame
    ensures r.Some? ==> m.text.Some? && TokenFromText(m.text.value, r.value.token)
    ensures r.Some? ==> r.value.token == TokenOf(ActivationLine(m)).value
    ensures r.Some? ==> r.value.game == GameOfSlug(SlugOf(ActivationLine(m)))
  {
    if !Contains(m.subject, WelcomeMarker) then None
    else
      var line := ActivationLine(m);
      var token := TokenOf(line);
      var game := GameOfSlug(SlugOf(line));
      if token.None? || token.value == "" || game == "" then None
      else
        TokenFacts(m.text.value, line.value);
        Some(ActivationEvent(game, token.value))
  }

  /** The correlator the rest of the model uses: as written, except that
      an event whose game is not in the domain table is dropped instead of
      being activated against "undefined/api/verify". */
  function Correlate(m: Message): (r: Option<ActivationEvent>)
    ensures !Contains(m.subject, WelcomeMarker) ==> r.None?
    ensures r.Some? ==> r.value.game in KnownGames && Domain(r.value.game).Some?
    ensures r.Some? ==> m.text.Some? && TokenFromText(m.text.value, r.value.token)
    ensures r.Some? <==> CorrelateAsWritten(m).Some? && CorrelateAsWritten(m).value.game != UnknownGame
    ensures r.Some? ==> r == CorrelateAsWritten(m)
  {
    match CorrelateAsWritten(m)
    case None => None
    case Some(e) => if Domain(e.game).Some? then Some(e) else None
  }

  /** A mail whose activation line holds no `verify/` (or that has no
      activation line at all) never yields an event, whatever the rest of
      its text holds. */
  lemma NoMarkerNoEvent(m: Message)
    requires ActivationLine(m).None? || !Contains(ActivationLine(m).value, VerifyMarker)
    ensures CorrelateAsWritten(m).None?
    ensures Correlate(m).None?
  {
  }

  /** No quote and no line break. */
  predicate PlainText(s: string) {
    '"' !in s && '\n' !in s
  }

  lemma FirstLinkIs(s: string, i: nat)
    requires LinkAt(s, i)
    requires forall j: nat :: j < i ==> !OccursAt(s, LinkPrefix, j)
    ensures FirstLinkFrom(s, 0) == Some(i)
  {
  }

  lemma RunEndIs(s: string, from: nat, e: nat)
    requires from <= e <= |s|
    requires forall k :: from <= k < e ==> s[k] != '"'
    requires e == |s| || s[e] == '"'
    ensures RunEnd(s, from) == e
  {
  }

  lemma MatchLinkIs(s: string, i: nat, e: nat)
    requires LinkAt(s, i)
    requires forall j: nat :: j < i ==> !OccursAt(s, LinkPrefix, j)
    requires i + |LinkPrefix| <= e <= |s|
    requires forall k :: i + |LinkPrefix| <= k < e ==> s[k] != '"'
    requires e == |s| || s[e] == '"'
    ensures MatchLink(s) == Some(s[i..e])
  {
    FirstLinkIs(s, i);
    RunEndIs(s, i + |LinkPrefix|, e);
  }

  /** The leftmost link match in `prefix + link + tail`, when `prefix`
      holds no link start, `link` is plain text after the literal prefix
      and `tail` starts with a quote (or is empty). */
  lemma {:induction false} MatchLinkAt(prefix: string, rest: string, tail: string)
    requires !Contains(prefix, LinkPrefix)
    requires |rest| > 0 && PlainText(rest)
    requires tail == "" || tail[0] == '"'
    ensures MatchLink(prefix + LinkPrefix + rest + tail) == Some(LinkPrefix + rest)
  {
    var text := prefix + LinkPrefix + rest + tail;
    NoEarlierLink(prefix, rest, tail);
    QuoteFreeRun(prefix + LinkPrefix, rest, tail);
    MatchLinkIs(text, |prefix|, |prefix| + |LinkPrefix| + |rest|);
  }

  /** In `prefix + LinkPrefix + rest + tail`, with no link start in
      `prefix`, the literal prefix first occurs right after `prefix`. */
  lemma NoEarlierLink(prefix: string, rest: string, tail: string)
    requires !Contains(prefix, LinkPrefix)
    ensures OccursAt(prefix + LinkPrefix + rest + tail, LinkPrefix, |prefix|)
    ensures forall j: nat :: j < |prefix| ==> !OccursAt(prefix + LinkPrefix + rest + tail, LinkPrefix, j)
  {
    SeparatorsDoNotOverlap();
    assert prefix + LinkPrefix + rest + tail == prefix + LinkPrefix + (rest + tail);
    FirstOccurrenceAfter(prefix, LinkPrefix, rest + tail);
  }

  /** The plain `rest` after `head` is a quote-free run ended by `tail`,
      and the text from the link start to the run's end is the link. */
  lemma QuoteFreeRun(head: string, rest: string, tail: string)
    requires |head| >= |LinkPrefix| && head[|head| - |LinkPrefix|..] == LinkPrefix
    requires |rest| > 0 && PlainText(rest)
    requires tail == "" || tail[0] == '"'
    ensures var text := head + rest + tail;
            && text[|head|] != '"'
            && (forall k :: |head| <= k < |head| + |rest| ==> text[k] != '"')
            && (|head| + |rest| == |text| || text[|head| + |rest|] == '"')
            && text[|head| - |LinkPrefix|..|head| + |rest|] == LinkPrefix + rest
  {
    var text := head + rest + tail;
    forall k | |head| <= k < |head| + |rest|
      ensures text[k] != '"'
    {
      assert text[k] == rest[k - |head|];
    }
    if tail != "" {
      assert text[|head| + |rest|] == tail[0];
    }
    assert text[|head| - |LinkPrefix|..|head| + |rest|] == head[|head| - |LinkPrefix|..] + rest;
  }

  /** None of the separators the handler splits on can overlap itself. */
  lemma SeparatorsDoNotOverlap()
    ensures LastCharUnique(VerifyMarker)
    ensures LastCharUnique(LinkPrefix)
    ensures LastCharUnique(".com")
  {
  }

  /** The pieces of a link `https://developer.<slug>.com<mid>verify/<token>`
      split back apart: no quote or line break before the token ends, no
      second link start, the slug free of ".com", and "verify/" first
      appearing right before the token. */
  predicate LinkParts(slug: string, mid: string, token: string) {
    && |slug| > 0
    && PlainText(slug + ".com" + mid + VerifyMarker + token)
    && !Contains(slug + ".com" + mid + VerifyMarker + token, LinkPrefix)
    && !Contains(slug, ".com")
    && !Contains(LinkPrefix + slug + ".com" + mid, VerifyMarker)
    && !Contains(token, VerifyMarker)
  }

  /** The piece after the first "verify/", cut at the first quote. */
  lemma TokenOfLink(link: string, head: string, token: string)
    requires link == head + VerifyMarker + token
    requires !Contains(head, VerifyMarker)
    requires '"' !in token && !Contains(token, VerifyMarker)
    ensures TokenOf(Some(link)) == Some(token)
  {
    SeparatorsDoNotOverlap();
    SplitAround(head, VerifyMarker, token);
    SplitWithout(token, VerifyMarker);
    AbsentCharRulesOut(token, "\"", '"');
    SplitWithout(token, "\"");
  }

  /** A second `verify/` after the token ends it: the token is read from
      the first marker up to the next one. */
  lemma {:induction false} TokenStopsAtNextMarker(head: string, token: string, more: string)
    requires !Contains(head, VerifyMarker)
    requires '"' !in token && !Contains(token, VerifyMarker)
    ensures TokenOf(Some(head + VerifyMarker + (token + VerifyMarker + more))) == Some(token)
  {
    MarkerEndsToken(token, more);
    TokenAfterFirstMarker(head, token + VerifyMarker + more, token);
  }

  /** The token of a line whose first marker follows `head` is read from
      what comes after that marker. */
  lemma TokenAfterFirstMarker(head: string, after: string, token: string)
    requires !Contains(head, VerifyMarker)
    requires PrefixBefore(after, VerifyMarker, "\"", token)
    ensures TokenOf(Some(head + VerifyMarker + after)) == Some(token)
  {
    var line := head + VerifyMarker + after;
    SeparatorsDoNotOverlap();
    FirstOccurrenceAfter(head, VerifyMarker, after);
    assert line[|head| + |VerifyMarker|..] == after;
    PrefixBeforeUnique(after, VerifyMarker, "\"", TokenOf(Some(line)).value, token);
  }

  /** A quote-free, marker-free token followed by a marker is `after` read
      up to its first marker or quote. */
  lemma MarkerEndsToken(token: string, more: string)
    requires '"' !in token && !Contains(token, VerifyMarker)
    ensures PrefixBefore(token + VerifyMarker + more, VerifyMarker, "\"", token)
  {
    var after := token + VerifyMarker + more;
    SeparatorsDoNotOverlap();
    FirstOccurrenceAfter(token, VerifyMarker, more);
    forall j: nat | j < |token|
      ensures !OccursAt(after, "\"", j)
    {
      assert after[j..j + 1][0] == token[j];
    }
    assert after[..|token|] == token;
  }

  /** The piece after "https://developer.", cut at the first ".com". */
  lemma SlugOfLink(link: string, slug: string, more: string)
    requires link == LinkPrefix + (slug + ".com" + more)
    requires !Contains(slug, ".com")
    requires !Contains(slug + ".com" + more, LinkPrefix)
    ensures SlugOf(Some(link)) == Some(slug)
  {
    SeparatorsDoNotOverlap();
    var rest := slug + ".com" + more;
    assert link == "" + LinkPrefix + rest;
    AbsentCharRulesOut("", LinkPrefix, 'h');
    SplitAround("", LinkPrefix, rest);
    SplitWithout(rest, LinkPrefix);
    SplitAround(slug, ".com", more);
  }

  /** The activation line of a mail whose text is `prefix`, a link of
      plain text, then a quote, a line break or nothing: the link up to
      there. After a line break the match runs on to the next quote, and
      the cut at the first line break takes it back to the link. */
  lemma LineOfMail(m: Message, prefix: string, rest: string, tail: string)
    requires !Contains(prefix, LinkPrefix)
    requires |rest| > 0 && PlainText(rest)
    requires tail == "" || tail[0] == '"' || tail[0] == '\n'
    requires m.text == Some(prefix + LinkPrefix + rest + tail)
    ensures ActivationLine(m) == Some(LinkPrefix + rest)
  {
    if tail != "" && tail[0] == '\n' {
      LinkBeforeBreak(prefix, rest, tail);
      PrefixBeforeUnique(MatchLink(m.text.value).value, "\n", "\n", ActivationLine(m).value, LinkPrefix + rest);
    } else {
      LineOfQuotedLink(m, prefix, rest, tail);
    }
  }

  lemma LineOfQuotedLink(m: Message, prefix: string, rest: string, tail: string)
    requires !Contains(prefix, LinkPrefix)
    requires |rest| > 0 && PlainText(rest)
    requires tail == "" || tail[0] == '"'
    requires m.text == Some(prefix + LinkPrefix + rest + tail)
    ensures ActivationLine(m) == Some(LinkPrefix + rest)
  {
    var link := LinkPrefix + rest;
    MatchLinkAt(prefix, rest, tail);
    // the link holds no line break, so cutting at "\n" keeps it whole
    PrefixIsPlain();
    assert '\n' !in link;
    AbsentCharRulesOut(link, "\n", '\n');
    SplitWithout(link, "\n");
    assert Piece(Some(link), "\n", 0) == Some(link);
  }

  /** When a line break follows the plain link, the match runs past it,
      and read up to its first line break it is the link. */
  lemma {:induction false} LinkBeforeBreak(prefix: string, rest: string, tail: string)
    requires !Contains(prefix, LinkPrefix)
    requires |rest| > 0 && PlainText(rest)
    requires |tail| > 0 && tail[0] == '\n'
    ensures MatchLink(prefix + LinkPrefix + rest + tail).Some?
    ensures PrefixBefore(MatchLink(prefix + LinkPrefix + rest + tail).value, "\n", "\n", LinkPrefix + rest)
  {
    LinkRunsPastBreak(prefix, rest, tail);
    var text := prefix + LinkPrefix + rest + tail;
    var t := LinkPrefix + rest;
    var e := RunEnd(text, |prefix| + |LinkPrefix|);
    AppendMiddlePair(prefix, LinkPrefix, rest, tail);
    SliceAtLink(prefix, t, tail, e);
    PlainLink(rest);
    LineCut(text[|prefix|..e], t);
  }

  /** A link of plain text after the prefix holds no line break. */
  lemma PlainLink(rest: string)
    requires PlainText(rest)
    ensures '\n' !in LinkPrefix + rest
  {
    PrefixIsPlain();
  }

  /** A slice of `prefix + t + tail` from the start of `t` past its end
      begins with `t` and then the first character of `tail`. */
  lemma SliceAtLink(prefix: string, t: string, tail: string, e: nat)
    requires |prefix| + |t| < e <= |prefix| + |t| + |tail|
    ensures var link := (prefix + t + tail)[|prefix|..e];
            && |t| < |link| && link[..|t|] == t && link[|t|] == tail[0]
  {
    var text := prefix + t + tail;
    var link := text[|prefix|..e];
    assert link[..|t|] == t;
    assert link[|t|] == text[|prefix| + |t|];
  }

  /** The match of such a text starts at the link and runs past the line
      break. */
  lemma {:induction false} LinkRunsPastBreak(prefix: string, rest: string, tail: string)
    requires !Contains(prefix, LinkPrefix)
    requires |rest| > 0 && PlainText(rest)
    requires |tail| > 0 && tail[0] == '\n'
    ensures var text := prefix + LinkPrefix + rest + tail;
            var from := |prefix| + |LinkPrefix|;
            && from + |rest| < |text|
            && RunEnd(text, from) > from + |rest|
            && MatchLink(text) == Some(text[|prefix|..RunEnd(text, from)])
  {
    var text := prefix + LinkPrefix + rest + tail;
    var i := |prefix|;
    var from := i + |LinkPrefix|;
    var nl := from + |rest|;
    NoEarlierLink(prefix, rest, tail);
    assert text[from] == rest[0];
    assert LinkAt(text, i);
    FirstLinkIs(text, i);
    forall k | from <= k <= nl
      ensures text[k] != '"'
    {
      if k < nl {
        assert text[k] == rest[k - from];
      } else {
        assert text[k] == tail[0];
      }
    }
    RunEndAfter(text, from, nl);
  }

  /** A line break right after a break-free prefix ends the first line there. */
  lemma LineCut(link: string, t: string)
    requires |t| < |link| && link[..|t|] == t
    requires '\n' !in t && link[|t|] == '\n'
    ensures PrefixBefore(link, "\n", "\n", t)
  {
    forall j: nat | j < |t|
      ensures !OccursAt(link, "\n", j)
    {
      assert link[j] == t[j];
      assert link[j..j + 1][0] == link[j];
    }
    assert link[|t|..|t| + 1] == "\n";
  }

  /** The greedy run goes past every position up to `q` that holds no quote. */
  lemma RunEndAfter(s: string, from: nat, q: nat)
    requires from <= q < |s|
    requires forall k :: from <= k <= q ==> s[k] != '"'
    ensures RunEnd(s, from) > q
    decreases q - from
  {
    if from < q {
      RunEndAfter(s, from + 1, q);
    }
  }

  lemma PrefixIsPlain()
    ensures PlainText(LinkPrefix)
  {
  }

  /** The complete parse of a welcome mail whose text holds, after any
      preamble without a link start, the link
      `https://developer.<slug>.com<mid>verify/<token>` closed by a quote,
      by a line break or by the end of the text. */
  lemma {:induction false} CorrelateMailShape(subject: string, prefix: string, slug: string, mid: string, token: string, tail: string)
    requires Contains(subject, WelcomeMarker)
    requires !Contains(prefix, LinkPrefix)
    requires LinkParts(slug, mid, token)
    requires tail == "" || tail[0] == '"' || tail[0] == '\n'
    ensures CorrelateAsWritten(Message(subject, Some(prefix + LinkPrefix + slug + ".com" + mid + VerifyMarker + token + tail)))
         == if token == "" then None else Some(ActivationEvent(GameOfSlug(Some(slug)), token))
  {
    var rest := slug + ".com" + mid + VerifyMarker + token;
    var link := LinkPrefix + rest;
    var text := prefix + LinkPrefix + slug + ".com" + mid + VerifyMarker + token + tail;
    var m := Message(subject, Some(text));
    AppendFivePieces(prefix + LinkPrefix, slug, ".com", mid, VerifyMarker, token);
    LineOfMail(m, prefix, rest, tail);
    AppendFivePieces(LinkPrefix, slug, ".com", mid, VerifyMarker, token);
    TokenOfLink(link, LinkPrefix + slug + ".com" + mid, token);
    assert TokenOf(ActivationLine(m)) == Some(token);
    AppendThreePieces(slug, ".com", mid, VerifyMarker, token);
    SlugOfLink(link, slug, mid + VerifyMarker + token);
    assert SlugOf(ActivationLine(m)) == Some(slug);
  }

  predicate IsAsciiAlnum(c: char) {
    ('0' <= c <= '9') || ('a' <= c <= 'z') || ('A' <= c <= 'Z')
  }

  /** An activation token as the portals issue them: letters and digits. */
  predicate IsPlainToken(t: string) {
    |t| > 0 && forall k :: 0 <= k < |t| ==> IsAsciiAlnum(t[k])
  }

  /** The characters the parse cuts at are none of a token's. */
  predicate TokenShape(token: string) {
    '"' !in token && '\n' !in token && ':' !in token && '/' !in token
  }

  /** A slug in a portal host name: no quote, line break, colon, dot, or
      letter `i` (the last keeps "verify/" from starting inside it). */
  predicate SlugShape(slug: string) {
    |slug| > 0 && '"' !in slug && '\n' !in slug && ':' !in slug && '.' !in slug && 'i' !in slug
  }

  lemma PlainTokenShape(token: string)
    requires IsPlainToken(token)
    ensures TokenShape(token)
  {
    forall c | c in token
      ensures c != '"' && c != '\n' && c != ':' && c != '/'
    {
      var k :| 0 <= k < |token| && token[k] == c;
      assert IsAsciiAlnum(token[k]);
    }
  }

  /** The portal slugs, including one the slug table does not know. */
  lemma PortalSlugShapes()
    ensures SlugShape("brawlstars")
    ensures SlugShape("clashofclans")
    ensures SlugShape("clashroyale")
    ensures SlugShape("squadbusters")
  {
  }

  /** Which characters the fixed parts of a portal link hold. */
  lemma FixedPartChars()
    ensures PlainText(".com") && PlainText("/#/") && PlainText(VerifyMarker)
    ensures ':' !in ".com" && ':' !in "/#/" && ':' !in VerifyMarker && ':' in LinkPrefix
    ensures 'i' !in LinkPrefix && 'i' !in ".com" && 'i' !in "/#/" && 'i' in VerifyMarker
    ensures '.' in ".com" && '/' in VerifyMarker
  {
  }

  /** Any slug and token of the shapes above make up a portal link
      `https://developer.<slug>.com/#/verify/<token>` that parses back. */
  lemma {:induction false} PortalLinkParts(slug: string, token: string)
    requires SlugShape(slug) && TokenShape(token)
    ensures LinkParts(slug, "/#/", token)
  {
    FixedPartChars();
    var rest := slug + ".com" + "/#/" + VerifyMarker + token;
    assert PlainText(rest);
    AbsentCharRulesOut(rest, LinkPrefix, ':');
    AbsentCharRulesOut(slug, ".com", '.');
    AbsentCharRulesOut(LinkPrefix + slug + ".com" + "/#/", VerifyMarker, 'i');
    AbsentCharRulesOut(token, VerifyMarker, '/');
  }

  /** The slug each registry game's domain carries. */
  function SlugOfGame(game: string): (slug: string)
    requires game in KnownGames
    ensures BaseUrl(game) == LinkPrefix + slug + ".com"
    ensures GameOfSlug(Some(slug)) == game
    ensures SlugShape(slug)
  {
    PortalSlugShapes();
    if game == BrawlStars then
      assert BaseUrl(game) == "https://developer.brawlstars.com";
      "brawlstars"
    else if game == ClashOfClans then
      assert BaseUrl(game) == "https://developer.clashofclans.com";
      "clashofclans"
    else
      assert BaseUrl(game) == "https://developer.clashroyale.com";
      "clashroyale"
  }

  /** The portal's activation link, regrouped around the markers. */
  lemma LinkAroundMarkers(prefix: string, base: string, slug: string, token: string, tail: string)
    requires base == LinkPrefix + slug + ".com"
    ensures prefix + base + "/#/verify/" + token + "\"" + tail
         == prefix + LinkPrefix + slug + ".com" + "/#/" + VerifyMarker + token + ("\"" + tail)
  {
    assert "/#/verify/" == "/#/" + VerifyMarker;
  }

  /** The slug table and the domain table agree: a welcome mail carrying
      the portal's activation link `<domain>/#/verify/<token>"` for a game
      of the registry correlates back to that same game and token. */
  lemma {:induction false} RegisteredLinkRoundTrip(game: string, subject: string, prefix: string, token: string, tail: string)
    requires game in KnownGames
    requires Contains(subject, WelcomeMarker)
    requires !Contains(prefix, LinkPrefix)
    requires IsPlainToken(token)
    ensures Correlate(Message(subject, Some(prefix + BaseUrl(game) + "/#/verify/" + token + "\"" + tail)))
         == Some(ActivationEvent(game, token))
  {
    var slug := SlugOfGame(game);
    LinkAroundMarkers(prefix, BaseUrl(game), slug, token, tail);
    PlainTokenShape(token);
    PortalLinkParts(slug, token);
    CorrelateMailShape(subject, prefix, slug, "/#/", token, "\"" + tail);
  }

  /** The worked example: a Brawl Stars welcome mail. */
  lemma BrawlStarsWelcome(prefix: string, tail: string)
    requires !Contains(prefix, LinkPrefix)
    ensures Correlate(Message("Welcome to the Brawl Stars Developer Portal",
                              Some(prefix + "https://developer.brawlstars.com" + "/#/verify/" + "ABC123" + "\"" + tail)))
         == Some(ActivationEvent("Brawl Stars", "ABC123"))
  {
    var subject := "Welcome to the Brawl Stars Developer Portal";
    assert OccursAt(subject, WelcomeMarker, 0);
    assert IsPlainToken("ABC123");
    RegisteredLinkRoundTrip(BrawlStars, subject, prefix, "ABC123", tail);
  }

  /** A link that ends right after `verify/` carries an empty token: no event. */
  lemma EmptyTokenNoEvent(prefix: string, tail: string)
    requires !Contains(prefix, LinkPrefix)
    ensures CorrelateAsWritten(Message("Welcome to the Brawl Stars Developer Portal",
                                       Some(prefix + "https://developer.brawlstars.com" + "/#/verify/" + "\"" + tail))).None?
  {
    var subject := "Welcome to the Brawl Stars Developer Portal";
    assert OccursAt(subject, WelcomeMarker, 0);
    var slug := SlugOfGame(BrawlStars);
    assert prefix + BaseUrl(BrawlStars) + "/#/verify/" + "\"" + tail
        == prefix + LinkPrefix + slug + ".com" + "/#/" + VerifyMarker + "" + ("\"" + tail);
    PortalLinkParts(slug, "");
    CorrelateMailShape(subject, prefix, slug, "/#/", "", "\"" + tail);
  }

  /** As written, a welcome mail for a portal outside the slug table still
      produces an event, named "Unknown game": the `!game` guard cannot
      fire. The corrected correlator drops it. */
  lemma UnknownSlugPassesGuard()
    ensures CorrelateAsWritten(Message("Welcome to the Squad Busters Developer Portal",
                                       Some("https://developer." + "squadbusters" + ".com" + "/#/verify/" + "T1" + "\"")))
         == Some(ActivationEvent(UnknownGame, "T1"))
    ensures Correlate(Message("Welcome to the Squad Busters Developer Portal",
                              Some("https://developer." + "squadbusters" + ".com" + "/#/verify/" + "T1" + "\""))).None?
  {
    var subject := "Welcome to the Squad Busters Developer Portal";
    assert OccursAt(subject, WelcomeMarker, 0);
    var slug := "squadbusters";
    assert "https://developer." + slug + ".com" + "/#/verify/" + "T1" + "\""
        == "" + LinkPrefix + slug + ".com" + "/#/" + VerifyMarker + "T1" + "\"";
    AbsentCharRulesOut("", LinkPrefix, 'h');
    PortalSlugShapes();
    assert IsPlainToken("T1");
    PlainTokenShape("T1");
    PortalLinkParts(slug, "T1");
    CorrelateMailShape(subject, "", slug, "/#/", "T1", "\"");
    assert GameOfSlug(Some(slug)) == UnknownGame;
  }
}

=== FILE: credentials.dfy ===
/** The fake name and the password `main` makes up. The random draws are
    parameters: the base-36 digit strings, one upper-case flag per
    password character (a draw of 0.7 or more), and the suffix index. */
module Credentials {
  import opened JsStrings

  /** The suffixes the password may end with, in the program's order. */
  const Suffixes: seq<string> := ["!", "?", "!!", "?!"]

  /** `s.charAt(0).toUpperCase() + s.slice(1)`. */
  function Capitalize(s: string): (r: string)
    ensures |r| == |s|
  {
    if |s| == 0 then "" else [UpperChar(s[0])] + s[1..]
  }

  /** `s.split("").map(c => upper ? c.toUpperCase() : c).join("")` with
      the per-character choices given as flags. */
  function Fold(s: string, upper: seq<bool>): (r: string)
    requires |upper| == |s|
    ensures |r| == |s|
  {
    seq(|s|, k requires 0 <= k < |s| => if upper[k] then UpperChar(s[k]) else s[k])
  }

  /** The two base strings concatenated, folded, and the chosen suffix
      appended. */
  function Password(first: string, second: string, upper: seq<bool>, pick: nat): (p: string)
    requires |upper| == |first| + |second|
    requires pick < |Suffixes|
    ensures |p| == |first| + |second| + |Suffixes[pick]|
    ensures p[|first| + |second|..] == Suffixes[pick]
    ensures Lower(p[..|first| + |second|]) == Lower(first + second)
  {
    var body := Fold(first + second, upper);
    FoldLowersBack(first + second, upper);
    var p := body + Suffixes[pick];
    assert p[..|first| + |second|] == body;
    p
  }

  /** Upper-casing an ASCII letter and lower-casing it again gives back
      its lower-case form; other characters are left alone. */
  lemma LowerOfUpper(c: char)
    ensures LowerChar(UpperChar(c)) == LowerChar(c)
  {
  }

  /** A string of base-36 digits as `Number.prototype.toString(36)` writes
      them: digits and lower-case letters. */
  predicate IsBase36(s: string) {
    forall k :: 0 <= k < |s| ==> ('0' <= s[k] <= '9') || ('a' <= s[k] <= 'z')
  }

  /** Folding only upper-cases: lower-casing the result gives the
      lower-cased input, so base-36 input is recovered exactly. */
  lemma {:induction false} FoldLowersBack(s: string, upper: seq<bool>)
    requires |upper| == |s|
    ensures Lower(Fold(s, upper)) == Lower(s)
    ensures IsBase36(s) ==> Lower(Fold(s, upper)) == s
  {
    var f := Fold(s, upper);
    forall k | 0 <= k < |s|
      ensures Lower(f)[k] == Lower(s)[k]
    {
      LowerOfUpper(s[k]);
    }
    if IsBase36(s) {
      forall k | 0 <= k < |s|
        ensures Lower(s)[k] == s[k]
      {
      }
    }
  }

  /** The password is the folded concatenation of the two bases followed
      by one of the four suffixes, so its length is the bases' plus one or
      two, and lower-casing its body gives the bases back. */
  lemma {:induction false} PasswordShape(first: string, second: string, upper: seq<bool>, pick: nat)
    requires |upper| == |first| + |second|
    requires pick < |Suffixes|
    requires IsBase36(first) && IsBase36(second)
    ensures var p := Password(first, second, upper, pick);
            && |p| == |first| + |second| + |Suffixes[pick]|
            && 1 <= |Suffixes[pick]| <= 2
            && p[|first| + |second|..] == Suffixes[pick]
            && Lower(p[..|first| + |second|]) == first + second
  {
    var p := Password(first, second, upper, pick);
    var body := Fold(first + second, upper);
    assert p[..|first| + |second|] == body;
    assert p[|first| + |second|..] == Suffixes[pick];
    assert IsBase36(first + second) by {
      forall k | 0 <= k < |first + second|
        ensures ('0' <= (first + second)[k] <= '9') || ('a' <= (first + second)[k] <= 'z')
      {
        if k < |first| {
          assert (first + second)[k] == first[k];
        } else {
          assert (first + second)[k] == second[k - |first|];
        }
      }
    }
    FoldLowersBack(first + second, upper);
  }

  /** Upper-case characters are not guaranteed: when no draw reaches 0.7
      the body of the password keeps none. */
  lemma FoldCanLeaveNoUppercase(s: string, upper: seq<bool>)
    requires IsBase36(s)
    requires |upper| == |s| && forall k :: 0 <= k < |upper| ==> !upper[k]
    ensures Fold(s, upper) == s
    ensures forall k :: 0 <= k < |s| ==> !('A' <= Fold(s, upper)[k] <= 'Z')
  {
  }

  /** The name keeps its length, starts with a capital when it starts
      with a letter, and lower-cases back to the base-36 digits. */
  lemma {:induction false} CapitalizeShape(s: string)
    requires IsBase36(s)
    ensures |Capitalize(s)| == |s|
    ensures |s| > 0 && 'a' <= s[0] <= 'z' ==> 'A' <= Capitalize(s)[0] <= 'Z'
    ensures Lower(Capitalize(s)) == s
    ensures Capitalize(Capitalize(s)) == Capitalize(s)
  {
    if |s| > 0 {
      var c := Capitalize(s);
      assert c[1..] == s[1..];
      forall k | 0 <= k < |s|
        ensures Lower(c)[k] == s[k]
      {
        if k == 0 {
          LowerOfUpper(s[0]);
        } else {
          assert c[k] == s[k];
        }
      }
      assert Capitalize(c) == [UpperChar(c[0])] + c[1..];
    }
  }
}

=== FILE: games.dfy ===
/** The game registry: the `gamesDomains` table and the slug table the
    mail correlator uses to name a game. */
module Games {
  import opened Wrappers

  const BrawlStars := "Brawl Stars"
  const ClashOfClans := "Clash of Clans"
  const ClashRoyale := "Clash Royale"

  /** The name the correlator gives a link whose slug is not in its table. */
  const UnknownGame := "Unknown game"

  /** The three games the prompt offers, in its order. */
  const KnownGames: seq<string> := [BrawlStars, ClashOfClans, ClashRoyale]

  /** `gamesDomains[game]`, with `None` for `undefined`. Only the three
      table keys are looked up by the program. */
  function Domain(game: string): (d: Option<string>)
    ensures d.Some? <==> game in KnownGames
  {
    if game == BrawlStars then Some("https://developer.brawlstars.com")
    else if game == ClashOfClans then Some("https://developer.clashofclans.com")
    else if game == ClashRoyale then Some("https://developer.clashroyale.com")
    else None
  }

  /** `${gamesDomains[game]}` inside a template literal: a missing entry
      is interpolated as the text "undefined". */
  function BaseUrl(game: string): string {
    match Domain(game)
    case Some(d) => d
    case None => "undefined"
  }

  /** The slug ternary chain: a slug of the table names its game, anything
      else (including no slug at all) is "Unknown game". */
  function GameOfSlug(slug: Option<string>): (name: string)
    ensures name in KnownGames || name == UnknownGame
    ensures name != ""
    ensures name == BrawlStars <==> slug == Some("brawlstars")
    ensures name == ClashOfClans <==> slug == Some("clashofclans")
    ensures name == ClashRoyale <==> slug == Some("clashroyale")
  {
    if slug == Some("brawlstars") then BrawlStars
    else if slug == Some("clashofclans") then ClashOfClans
    else if slug == Some("clashroyale") then ClashRoyale
    else UnknownGame
  }

  /** Each game has its own domain. */
  lemma DomainsDistinct(g: string, h: string)
    requires Domain(g).Some? && Domain(h).Some? && g != h
    ensures Domain(g) != Domain(h)
  {
  }
}

=== FILE: ip_list.dfy ===
/** The whitelisted-IP prompt: its `validate` callback, and the
    split-and-trim that later turns the same answer into the key's
    `cidrRanges`. The check is a shape check only: a group of three
    digits is accepted whatever its value. */
module IpList {
  import opened JsStrings

  const EmptyMessage := "You must provide at least one IP"
  const InvalidMessage := "One or more IPs are not valid. Please provide valids IPv4 addresses"

  /** What `validate` returns: `true`, or the message the prompt shows. */
  datatype Validation = Accepted | Refused(message: string)

  /** `\d` in a regular expression without the `u` flag: an ASCII digit. */
  predicate IsDigit(c: char) {
    '0' <= c <= '9'
  }

  /** A whole `\d{1,3}`. */
  predicate DigitGroup(g: string) {
    1 <= |g| <= 3 && forall k :: 0 <= k < |g| ==> IsDigit(g[k])
  }

  /** Four groups written with a dot between each. */
  function Dotted(g: seq<string>): string
    requires |g| == 4
  {
    g[0] + "." + g[1] + "." + g[2] + "." + g[3]
  }

  /** `s` matches `^(\d{1,3}\.){3}\d{1,3}$`. Without the `m` flag `^` and
      `$` anchor at the ends of the whole string, so the match must cover
      it; a digit is never a dot, so the groups are the dot-free runs. */
  ghost predicate MatchesIpPattern(s: string) {
    exists g: seq<string> :: |g| == 4 && (forall k :: 0 <= k < 4 ==> DigitGroup(g[k])) && s == Dotted(g)
  }

  /** The executable form of the pattern: the dot-separated pieces are
      four digit groups. */
  predicate IsDottedQuad(s: string) {
    var g := Split(s, ".");
    |g| == 4 && forall k :: 0 <= k < 4 ==> DigitGroup(g[k])
  }

  lemma JoinFour(g: seq<string>, sep: string)
    requires |g| == 4
    ensures Join(g, sep) == g[0] + sep + g[1] + sep + g[2] + sep + g[3]
  {
    assert g[1..][1..][1..] == [g[3]];
    assert Join(g[1..][1..], sep) == g[2] + sep + g[3];
    assert Join(g[1..], sep) == g[1] + sep + (g[2] + sep + g[3]);
  }

  lemma DigitsHaveNoDot(g: string)
    requires DigitGroup(g)
    ensures !Contains(g, ".")
  {
    assert '.' !in g by {
      forall k | 0 <= k < |g|
        ensures g[k] != '.'
      {
        assert IsDigit(g[k]);
      }
    }
    AbsentCharRulesOut(g, ".", '.');
  }

  /** Splitting a dotted string of digit groups on "." gives the groups back. */
  lemma {:induction false} SplitDotted(g: seq<string>)
    requires |g| == 4 && forall k :: 0 <= k < 4 ==> DigitGroup(g[k])
    ensures Split(Dotted(g), ".") == g
  {
    assert LastCharUnique(".");
    DigitsHaveNoDot(g[0]);
    DigitsHaveNoDot(g[1]);
    DigitsHaveNoDot(g[2]);
    DigitsHaveNoDot(g[3]);
    var t2 := g[2] + "." + g[3];
    var t1 := g[1] + "." + t2;
    SplitWithout(g[3], ".");
    SplitAround(g[2], ".", g[3]);
    assert Split(t2, ".") == [g[2], g[3]];
    SplitAround(g[1], ".", t2);
    assert Split(t1, ".") == [g[1], g[2], g[3]];
    DottedGroups(g);
    SplitAround(g[0], ".", t1);
  }

  lemma DottedGroups(g: seq<string>)
    requires |g| == 4
    ensures Dotted(g) == g[0] + "." + (g[1] + "." + (g[2] + "." + g[3]))
  {
  }

  /** The split-based check decides exactly the regular expression. */
  lemma {:induction false} IpPatternBySplit(s: string)
    ensures IsDottedQuad(s) <==> MatchesIpPattern(s)
  {
    if IsDottedQuad(s) {
      var g := Split(s, ".");
      JoinFour(g, ".");
      assert s == Dotted(g);
    }
    if MatchesIpPattern(s) {
      var g: seq<string> :| |g| == 4 && (forall k :: 0 <= k < 4 ==> DigitGroup(g[k])) && s == Dotted(g);
      SplitDotted(g);
    }
  }

  /** `answer.split(",").map(ip => ip.trim())`: one entry per comma-separated
      piece, in order, each that piece without its surrounding whitespace. */
  function CidrRanges(answer: string): (r: seq<string>)
    ensures |r| == |Split(answer, ",")| >= 1
    ensures forall k :: 0 <= k < |r| ==> ',' !in r[k]
    ensures forall k :: 0 <= k < |r| ==> IsTrimOf(Split(answer, ",")[k], r[k])
    ensures forall k :: 0 <= k < |r| && |r[k]| > 0 ==> !IsWhitespace(r[k][0]) && !IsWhitespace(r[k][|r[k]| - 1])
    ensures forall k :: 0 <= k < |r| ==> r[k] == Trim(Split(answer, ",")[k])
  {
    var pieces := Split(answer, ",");
    var r := seq(|pieces|, k requires 0 <= k < |pieces| => Trim(pieces[k]));
    forall k | 0 <= k < |r|
      ensures ',' !in r[k]
      ensures IsTrimOf(pieces[k], r[k])
    {
      CharNotContained(pieces[k], ',');
      assert r[k] == Trim(pieces[k]);
      var i: nat :| i <= |pieces[k]| && TrimmedAt(pieces[k], r[k], i);
      forall j | 0 <= j < |r[k]|
        ensures r[k][j] != ','
      {
        assert r[k][j] == pieces[k][i + j];
      }
    }
    r
  }

  /** Every trimmed piece of the answer matches the pattern. */
  ghost predicate AllIpsValid(answer: string) {
    forall k :: 0 <= k < |CidrRanges(answer)| ==> MatchesIpPattern(CidrRanges(answer)[k])
  }

  /** The `for` loop of `validate`: true when every range matches the
      pattern, false at the first one that does not. */
  method AllMatch(ips: seq<string>) returns (ok: bool)
    ensures ok <==> forall k :: 0 <= k < |ips| ==> MatchesIpPattern(ips[k])
  {
    var i := 0;
    while i < |ips|
      invariant 0 <= i <= |ips|
      invariant forall k :: 0 <= k < i ==> MatchesIpPattern(ips[k])
    {
      IpPatternBySplit(ips[i]);
      if !IsDottedQuad(ips[i]) {
        return false;
      }
      i := i + 1;
    }
    return true;
  }

  /** The prompt's `validate`: an empty answer is refused with its own
      message; otherwise the answer is accepted exactly when every trimmed
      comma-separated piece matches the pattern, and refused with the
      invalid-address message when one does not. */
  method Validate(answer: string) returns (v: Validation)
    ensures answer == "" ==> v == Refused(EmptyMessage)
    ensures answer != "" ==> (v == Accepted <==> AllIpsValid(answer))
    ensures answer != "" && v != Accepted ==> v == Refused(InvalidMessage)
  {
    if |answer| < 1 {
      return Refused(EmptyMessage);
    }
    var ok := AllMatch(CidrRanges(answer));
    if !ok {
      return Refused(InvalidMessage);
    }
    return Accepted;
  }

  /** Four digit groups joined by dots form an address. */
  lemma AddressMatches(a: string, b: string, c: string, d: string)
    requires DigitGroup(a) && DigitGroup(b) && DigitGroup(c) && DigitGroup(d)
    ensures MatchesIpPattern(a + "." + b + "." + c + "." + d)
    ensures ',' !in a + "." + b + "." + c + "." + d
    ensures Trim(a + "." + b + "." + c + "." + d) == a + "." + b + "." + c + "." + d
  {
    var s := a + "." + b + "." + c + "." + d;
    assert s == Dotted([a, b, c, d]);
    assert s[0] == a[0] && IsDigit(a[0]);
    assert s[|s| - 1] == d[|d| - 1] && IsDigit(d[|d| - 1]);
    TrimKeepsBareString(s);
    forall k | 0 <= k < |s|
      ensures s[k] != ','
    {
      assert s[k] in a || s[k] in b || s[k] in c || s[k] in d || s[k] == '.';
      if s[k] in a {
        var j :| 0 <= j < |a| && a[j] == s[k];
        assert IsDigit(a[j]);
      } else if s[k] in b {
        var j :| 0 <= j < |b| && b[j] == s[k];
        assert IsDigit(b[j]);
      } else if s[k] in c {
        var j :| 0 <= j < |c| && c[j] == s[k];
        assert IsDigit(c[j]);
      } else if s[k] in d {
        var j :| 0 <= j < |d| && d[j] == s[k];
        assert IsDigit(d[j]);
      }
    }
  }

  /** An answer without commas is one range: itself, trimmed. */
  lemma OneRange(s: string)
    requires ',' !in s
    ensures CidrRanges(s) == [Trim(s)]
  {
    AbsentCharRulesOut(s, ",", ',');
    SplitWithout(s, ",");
  }

  /** Two comma-free pieces joined by a comma are two ranges. */
  lemma TwoRanges(a: string, b: string)
    requires ',' !in a && ',' !in b
    ensures CidrRanges(a + "," + b) == [Trim(a), Trim(b)]
  {
    assert LastCharUnique(",");
    AbsentCharRulesOut(a, ",", ',');
    AbsentCharRulesOut(b, ",", ',');
    SplitAround(a, ",", b);
    SplitWithout(b, ",");
  }

  /** Leading spaces are trimmed away. */
  lemma TrimLeadingSpace(s: string)
    ensures Trim(" " + s) == Trim(s)
  {
    assert (" " + s)[1..] == s;
  }

  /** No range check: every group may be 999. */
  lemma NoRangeCheck()
    ensures AllIpsValid("999.999.999.999")
  {
    var g := "999";
    assert DigitGroup(g);
    AddressMatches(g, g, g, g);
    var s := g + "." + g + "." + g + "." + g;
    OneRange(s);
    assert s == "999.999.999.999";
  }

  lemma TwoValid(a: string, b: string)
    requires ',' !in a && ',' !in b
    requires MatchesIpPattern(Trim(a)) && MatchesIpPattern(Trim(b))
    ensures AllIpsValid(a + "," + b)
  {
    TwoRanges(a, b);
  }

  /** Spaces after the commas are trimmed away: two addresses written
      `a, b` are accepted. */
  lemma SpacedListAccepted(p: seq<string>, q: seq<string>)
    requires |p| == 4 && forall k :: 0 <= k < 4 ==> DigitGroup(p[k])
    requires |q| == 4 && forall k :: 0 <= k < 4 ==> DigitGroup(q[k])
    ensures AllIpsValid(Dotted(p) + ", " + Dotted(q))
  {
    AddressMatches(p[0], p[1], p[2], p[3]);
    AddressMatches(q[0], q[1], q[2], q[3]);
    var a := Dotted(p);
    var b := Dotted(q);
    TrimLeadingSpace(b);
    assert ',' !in " " + b;
    TwoValid(a, " " + b);
    CommaSpace(a, b);
  }

  lemma CommaSpace(a: string, b: string)
    ensures a + ", " + b == a + "," + (" " + b)
  {
    assert ", " == "," + " ";
  }

  /** A trailing comma leaves an empty piece, which is no address. */
  lemma TrailingCommaRefused()
    ensures !AllIpsValid("1.2.3.4,")
  {
    var a := "1.2.3.4";
    assert "1.2.3.4," == a + "," + "";
    TwoRanges(a, "");
    assert CidrRanges("1.2.3.4,")[1] == "";
    assert !MatchesIpPattern("") by {
      forall g: seq<string> | |g| == 4 && (forall k :: 0 <= k < 4 ==> DigitGroup(g[k]))
        ensures "" != Dotted(g)
      {
        assert |Dotted(g)| >= 7;
      }
    }
  }
}

=== FILE: js_strings.dfy ===
/** The JavaScript string operations the program relies on: `includes`,
    `indexOf`, `split` with a string separator, `trim` and ASCII case
    mapping. Strings are sequences of characters; `split` follows the
    ECMAScript algorithm (repeated `StringIndexOf` from the end of the
    previous separator). */
module JsStrings {
  import opened Wrappers

  /** `pat` occurs in `s` starting at index `i`. */
  predicate OccursAt(s: string, pat: string, i: nat) {
    i + |pat| <= |s| && s[i..i + |pat|] == pat
  }

  /** `s.includes(pat)` */
  predicate Contains(s: string, pat: string) {
    exists i: nat :: i <= |s| && OccursAt(s, pat, i)
  }

  /** `s.indexOf(pat, from)`, with `None` for -1. */
  function IndexOfFrom(s: string, pat: string, from: nat): (r: Option<nat>)
    decreases |s| - from
    ensures r.Some? ==> from <= r.value && OccursAt(s, pat, r.value)
    ensures r.Some? ==> forall j: nat :: from <= j < r.value ==> !OccursAt(s, pat, j)
    ensures r.None? ==> forall j: nat :: from <= j ==> !OccursAt(s, pat, j)
  {
    if from + |pat| > |s| then None
    else if s[from..from + |pat|] == pat then Some(from)
    else IndexOfFrom(s, pat, from + 1)
  }

  /** `s.indexOf(pat)`: the leftmost occurrence. */
  function IndexOf(s: string, pat: string): (r: Option<nat>)
    ensures r.Some? <==> Contains(s, pat)
    ensures r.Some? ==> OccursAt(s, pat, r.value)
    ensures r.Some? ==> forall j: nat :: j < r.value ==> !OccursAt(s, pat, j)
  {
    IndexOfFrom(s, pat, 0)
  }

  lemma IndexOfIs(s: string, pat: string, k: nat)
    requires OccursAt(s, pat, k)
    requires forall j: nat :: j < k ==> !OccursAt(s, pat, j)
    ensures IndexOf(s, pat) == Some(k)
  {
  }

  /** `parts.join(sep)` */
  function Join(parts: seq<string>, sep: string): string {
    if |parts| == 0 then ""
    else if |parts| == 1 then parts[0]
    else parts[0] + sep + Join(parts[1..], sep)
  }

  lemma NoOccurrenceBefore(s: string, sep: string, i: nat)
    requires |sep| > 0 && i <= |s|
    requires forall j: nat :: j < i ==> !OccursAt(s, sep, j)
    ensures !Contains(s[..i], sep)
  {
    forall j: nat | j <= i
      ensures !OccursAt(s[..i], sep, j)
    {
      if j + |sep| <= i {
        assert s[..i][j..j + |sep|] == s[j..j + |sep|];
        assert !OccursAt(s, sep, j);
      }
    }
  }

  /** `s.split(sep)` for a non-empty separator: the pieces between the
      successive leftmost occurrences of `sep`. There is always at least
      one piece, the pieces joined with `sep` give back `s`, and no piece
      contains the separator. */
  function Split(s: string, sep: string): (parts: seq<string>)
    requires |sep| > 0
    decreases |s|
    ensures |parts| >= 1
    ensures Join(parts, sep) == s
    ensures forall k :: 0 <= k < |parts| ==> !Contains(parts[k], sep)
  {
    match IndexOf(s, sep)
    case None => [s]
    case Some(i) =>
      NoOccurrenceBefore(s, sep, i);
      var rest := Split(s[i + |sep|..], sep);
      assert s == s[..i] + sep + s[i + |sep|..];
      assert ([s[..i]] + rest)[1..] == rest;
      [s[..i]] + rest
  }

  /** `split` gives a single piece exactly when the separator does not
      occur. */
  lemma SplitOnePiece(s: string, sep: string)
    requires |sep| > 0
    ensures |Split(s, sep)| == 1 <==> !Contains(s, sep)
  {
    if IndexOf(s, sep).Some? {
      var i := IndexOf(s, sep).value;
      assert Split(s, sep) == [s[..i]] + Split(s[i + |sep|..], sep);
    }
  }

  lemma SplitWithout(s: string, sep: string)
    requires |sep| > 0 && !Contains(s, sep)
    ensures Split(s, sep) == [s]
  {
  }

  /** The last character of `sep` appears nowhere else in it, so an
      occurrence of `sep` can never overlap the start of another one. */
  predicate LastCharUnique(sep: string) {
    |sep| > 0 && forall k :: 0 <= k < |sep| - 1 ==> sep[k] != sep[|sep| - 1]
  }

  /** The first occurrence of `sep` in `a + sep + b` is the one after `a`
      when `a` holds none and `sep` cannot overlap itself. */
  lemma FirstOccurrenceAfter(a: string, sep: string, b: string)
    requires LastCharUnique(sep)
    requires !Contains(a, sep)
    ensures IndexOf(a + sep + b, sep) == Some(|a|)
  {
    var s := a + sep + b;
    assert s[|a|..|a| + |sep|] == sep;
    assert OccursAt(s, sep, |a|);
    forall j: nat | j < |a|
      ensures !OccursAt(s, sep, j)
    {
      if j + |sep| <= |a| {
        assert s[j..j + |sep|] == a[j..j + |sep|];
        assert !OccursAt(a, sep, j);
      } else {
        var q := j + |sep| - 1;
        assert s[q] == sep[q - |a|];
        assert sep[q - |a|] != sep[|sep| - 1];
        assert s[j..j + |sep|][|sep| - 1] == s[q];
      }
    }
    IndexOfIs(s, sep, |a|);
  }

  /** Splitting at a first occurrence that follows a separator-free prefix. */
  lemma SplitAround(a: string, sep: string, b: string)
    requires LastCharUnique(sep)
    requires !Contains(a, sep)
    ensures Split(a + sep + b, sep) == [a] + Split(b, sep)
  {
    var s := a + sep + b;
    FirstOccurrenceAfter(a, sep, b);
    assert s[..|a|] == a;
    assert s[|a| + |sep|..] == b;
  }

  lemma AbsentCharRulesOut(s: string, pat: string, c: char)
    requires c in pat && c !in s
    ensures !Contains(s, pat)
  {
    var k :| 0 <= k < |pat| && pat[k] == c;
    forall i: nat | i <= |s|
      ensures !OccursAt(s, pat, i)
    {
      if i + |pat| <= |s| {
        assert s[i..i + |pat|][k] == s[i + k];
      }
    }
  }

  lemma ContainsTransitive(s: string, a: string, b: string)
    requires Contains(s, a) && Contains(a, b)
    ensures Contains(s, b)
  {
    var i: nat :| i <= |s| && OccursAt(s, a, i);
    var j: nat :| j <= |a| && OccursAt(a, b, j);
    forall k | 0 <= k < |b|
      ensures s[i + j + k] == b[k]
    {
      assert b[k] == a[j + k];
      assert a[j + k] == s[i + j + k];
    }
    assert s[i + j..i + j + |b|] == b;
    assert OccursAt(s, b, i + j);
  }

  lemma ContainsPrefixOf(s: string, a: string, n: nat)
    requires Contains(s, a) && n <= |a|
    ensures Contains(s, a[..n])
  {
    var i: nat :| i <= |s| && OccursAt(s, a, i);
    forall k | 0 <= k < n
      ensures s[i + k] == a[..n][k]
    {
      assert a[k] == s[i + k];
    }
    assert s[i..i + n] == a[..n];
    assert OccursAt(s, a[..n], i);
  }

  lemma ContainsSuffixOf(s: string, a: string, n: nat)
    requires Contains(s, a) && n <= |a|
    ensures Contains(s, a[n..])
  {
    var i: nat :| i <= |s| && OccursAt(s, a, i);
    forall k | 0 <= k < |a| - n
      ensures s[i + n + k] == a[n..][k]
    {
      assert a[n + k] == s[i + n + k];
    }
    assert s[i + n..i + n + |a[n..]|] == a[n..];
    assert OccursAt(s, a[n..], i + n);
  }

  lemma ContainsSelf(s: string)
    ensures Contains(s, s)
  {
    assert OccursAt(s, s, 0);
  }

  /** A string that does not contain the one-character string `[c]` has no `c`. */
  lemma CharNotContained(s: string, c: char)
    requires !Contains(s, [c])
    ensures c !in s
  {
    forall k | 0 <= k < |s|
      ensures s[k] != c
    {
      assert !OccursAt(s, [c], k);
      assert s[k..k + 1] == [s[k]];
    }
  }

  /** Every character of an infix is a character of the whole. */
  lemma InfixChars(s: string, t: string)
    requires Contains(s, t)
    ensures forall c :: c in t ==> c in s
  {
    var i: nat :| i <= |s| && OccursAt(s, t, i);
    forall k | 0 <= k < |t|
      ensures t[k] in s
    {
      assert s[i..i + |t|][k] == s[i + k];
    }
  }

  /** Appending a concatenation of five pieces appends the pieces one by one. */
  lemma AppendFivePieces(p: string, a: string, b: string, c: string, d: string, e: string)
    ensures p + (a + b + c + d + e) == p + a + b + c + d + e
  {
  }

  /** Joining the middle two of four pieces first gives the same string. */
  lemma AppendMiddlePair(a: string, b: string, c: string, d: string)
    ensures a + b + c + d == a + (b + c) + d
  {
  }

  /** Appending a concatenation of three pieces appends the pieces one by one. */
  lemma AppendThreePieces(a: string, b: string, c: string, d: string, e: string)
    ensures a + b + (c + d + e) == a + b + c + d + e
  {
  }

  lemma JoinStartsWithHead(parts: seq<string>, sep: string)
    requires |parts| >= 1
    ensures |parts[0]| <= |Join(parts, sep)|
    ensures Join(parts, sep)[..|parts[0]|] == parts[0]
  {
  }

  /** The first piece of a split is a prefix of the input. */
  lemma FirstPieceIsPrefix(s: string, sep: string)
    requires |sep| > 0
    ensures |Split(s, sep)[0]| <= |s|
    ensures s[..|Split(s, sep)[0]|] == Split(s, sep)[0]
  {
    JoinStartsWithHead(Split(s, sep), sep);
  }

  /** Inside an occurrence, `s` reads as the pattern. */
  lemma CharOfOccurrence(s: string, pat: string, j: nat, k: nat)
    requires OccursAt(s, pat, j) && j <= k < j + |pat|
    ensures s[k] == pat[k - j]
  {
    assert s[j..j + |pat|][k - j] == s[k];
  }

  /** `t` is `s` read up to the first place where `a` or `b` starts, or
      all of `s` when neither occurs. */
  predicate PrefixBefore(s: string, a: string, b: string, t: string) {
    && |t| <= |s| && t == s[..|t|]
    && (forall j: nat :: j < |t| ==> !OccursAt(s, a, j) && !OccursAt(s, b, j))
    && (|t| == |s| || OccursAt(s, a, |t|) || OccursAt(s, b, |t|))
  }

  /** A string has only one such prefix. */
  lemma PrefixBeforeUnique(s: string, a: string, b: string, t: string, u: string)
    requires PrefixBefore(s, a, b, t) && PrefixBefore(s, a, b, u)
    ensures t == u
  {
  }

  /** The first piece of a split is the input read up to the first
      separator. */
  lemma FirstPieceBefore(s: string, sep: string)
    requires |sep| > 0
    ensures PrefixBefore(s, sep, sep, Split(s, sep)[0])
  {
    match IndexOf(s, sep)
    case None =>
    case Some(i) =>
      assert Split(s, sep) == [s[..i]] + Split(s[i + |sep|..], sep);
  }

  /** The second piece of a split is what follows the first separator,
      read up to the next one. */
  lemma SecondPieceBefore(s: string, sep: string)
    requires |sep| > 0 && Contains(s, sep)
    ensures |Split(s, sep)| >= 2
    ensures PrefixBefore(s[IndexOf(s, sep).value + |sep|..], sep, sep, Split(s, sep)[1])
  {
    var i := IndexOf(s, sep).value;
    assert Split(s, sep) == [s[..i]] + Split(s[i + |sep|..], sep);
    FirstPieceBefore(s[i + |sep|..], sep);
  }

  /** Reading up to `a` and then up to `b` reads up to whichever comes
      first, provided no `b` of `s` straddles the first cut. */
  lemma {:induction false} CutTwice(s: string, a: string, b: string, p: string, t: string)
    requires PrefixBefore(s, a, a, p) && PrefixBefore(p, b, b, t)
    requires forall j: nat :: j < |p| && OccursAt(s, b, j) ==> OccursAt(p, b, j)
    ensures PrefixBefore(s, a, b, t)
  {
    assert t == s[..|t|];
    forall j: nat | j < |t|
      ensures !OccursAt(s, a, j) && !OccursAt(s, b, j)
    {
      assert !OccursAt(p, b, j);
    }
    if |t| < |p| {
      assert OccursAt(p, b, |t|);
      assert p[|t|..|t| + |b|] == s[|t|..|t| + |b|];
    }
  }

  /** A one-character separator cannot straddle the end of a prefix. */
  lemma OneCharInside(s: string, p: string, c: char)
    requires |p| <= |s| && p == s[..|p|]
    ensures forall j: nat :: j < |p| && OccursAt(s, [c], j) ==> OccursAt(p, [c], j)
  {
    forall j: nat | j < |p| && OccursAt(s, [c], j)
      ensures OccursAt(p, [c], j)
    {
      assert p[j..j + 1] == s[j..j + 1];
    }
  }

  /** The second piece of a split sits right after the first separator. */
  lemma SecondPieceFollowsSeparator(s: string, sep: string)
    requires |sep| > 0 && |Split(s, sep)| >= 2
    ensures Contains(s, sep + Split(s, sep)[1])
  {
    var parts := Split(s, sep);
    var tail := Join(parts[1..], sep);
    assert s == parts[0] + sep + tail;
    JoinStartsWithHead(parts[1..], sep);
    var w := sep + parts[1];
    assert s[|parts[0]|..|parts[0]| + |w|] == w;
    assert OccursAt(s, w, |parts[0]|);
  }

  /** The whitespace `String.prototype.trim` removes: ECMAScript's
      WhiteSpace (tab, vertical tab, form feed, no-break space, the byte
      order mark and every space separator of Unicode) and LineTerminator
      (line feed, carriage return, line and paragraph separators). */
  predicate IsWhitespace(c: char) {
    || c == '\t' || c == '\n' || c == '\U{000B}' || c == '\U{000C}' || c == '\r'
    || c == ' ' || c == '\U{00A0}' || c == '\U{1680}'
    || ('\U{2000}' <= c <= '\U{200A}')
    || c == '\U{2028}' || c == '\U{2029}' || c == '\U{202F}' || c == '\U{205F}'
    || c == '\U{3000}' || c == '\U{FEFF}'
  }

  /** `s.trimStart()` */
  function TrimStart(s: string): (r: string)
    ensures |r| <= |s| && r == s[|s| - |r|..]
    ensures forall k :: 0 <= k < |s| - |r| ==> IsWhitespace(s[k])
    ensures |r| > 0 ==> !IsWhitespace(r[0])
  {
    if |s| > 0 && IsWhitespace(s[0]) then TrimStart(s[1..]) else s
  }

  /** `s.trimEnd()` */
  function TrimEnd(s: string): (r: string)
    ensures |r| <= |s| && r == s[..|r|]
    ensures forall k :: |r| <= k < |s| ==> IsWhitespace(s[k])
    ensures |r| > 0 ==> !IsWhitespace(r[|r| - 1])
  {
    if |s| > 0 && IsWhitespace(s[|s| - 1]) then TrimEnd(s[..|s| - 1]) else s
  }

  /** `r` is the part of `s` that starts at `i`, and everything around it is whitespace. */
  predicate TrimmedAt(s: string, r: string, i: nat) {
    && i + |r| <= |s|
    && s[i..i + |r|] == r
    && (forall k :: 0 <= k < i ==> IsWhitespace(s[k]))
    && (forall k :: i + |r| <= k < |s| ==> IsWhitespace(s[k]))
  }

  /** `r` is `s` with some whitespace removed from each end. */
  predicate IsTrimOf(s: string, r: string) {
    exists i: nat :: i <= |s| && TrimmedAt(s, r, i)
  }

  /** `s.trim()`: `s` without its leading and trailing whitespace. */
  function Trim(s: string): (r: string)
    ensures IsTrimOf(s, r)
    ensures |r| > 0 ==> !IsWhitespace(r[0]) && !IsWhitespace(r[|r| - 1])
  {
    var front := TrimStart(s);
    var r := TrimEnd(front);
    TrimEndOfSuffix(s, front, r);
    r
  }

  /** Trimming the end of a suffix whose start was whitespace leaves a
      trimmed part of the whole. */
  lemma TrimEndOfSuffix(s: string, front: string, r: string)
    requires |front| <= |s| && front == s[|s| - |front|..]
    requires forall k :: 0 <= k < |s| - |front| ==> IsWhitespace(s[k])
    requires |r| <= |front| && r == front[..|r|]
    requires forall k :: |r| <= k < |front| ==> IsWhitespace(front[k])
    ensures TrimmedAt(s, r, |s| - |front|)
  {
    var i := |s| - |front|;
    forall k | i + |r| <= k < |s|
      ensures IsWhitespace(s[k])
    {
      assert s[k] == front[k - i];
    }
  }

  lemma TrimKeepsBareString(s: string)
    requires |s| > 0 ==> !IsWhitespace(s[0]) && !IsWhitespace(s[|s| - 1])
    ensures Trim(s) == s
  {
  }

  /** `c.toUpperCase()` on the ASCII letters; every other character maps to itself. */
  function UpperChar(c: char): char {
    if 'a' <= c <= 'z' then (c as int - 32) as char else c
  }

  /** `c.toLowerCase()` on the ASCII letters; every other character maps to itself. */
  function LowerChar(c: char): char {
    if 'A' <= c <= 'Z' then (c as int + 32) as char else c
  }

  function Lower(s: string): string {
    seq(|s|, k requires 0 <= k < |s| => LowerChar(s[k]))
  }
}

=== FILE: js_values.dfy ===
/** The JavaScript values a portal reply can decode to, and the three
    language rules the program's checks lean on: truthiness, optional
    property access (`v?.key`) and the `a || b || ...` chain, plus the
    loose comparison `v != "ok"`. */
module JsValues {

  /** A JSON value, plus `undefined` for a property that is absent.
      Numbers are reals: JSON text cannot denote NaN. */
  datatype JsValue =
    | Undefined
    | Null
    | Bool(b: bool)
    | Num(n: real)
    | Str(s: string)
    | Arr(elems: seq<JsValue>)
    | Obj(fields: map<string, JsValue>)

  /** `undefined` and `null`: reading a property of them throws a TypeError. */
  predicate Nullish(v: JsValue) {
    v.Undefined? || v.Null?
  }

  /** What `if (v)` decides: `undefined`, `null`, `false`, `0`, `""` are
      falsy; every array and object is truthy, even an empty one. */
  predicate Truthy(v: JsValue) {
    match v
    case Undefined => false
    case Null => false
    case Bool(b) => b
    case Num(n) => n != 0.0
    case Str(s) => s != ""
    case Arr(_) => true
    case Obj(_) => true
  }

  /** `v?.key` for the property names the program reads (`error`,
      `description`, `status`, `message`, `key`): only an object's own
      fields carry them; strings, numbers, booleans and arrays have no
      such property, and `?.` on `null`/`undefined` yields `undefined`.
      On a value that is not nullish this is also what `v.key` gives. */
  function Prop(v: JsValue, key: string): JsValue {
    match v
    case Obj(fields) => if key in fields then fields[key] else Undefined
    case _ => Undefined
  }

  /** `c0 || c1 || ... || last`: the first truthy candidate, or `last`
      (whatever it is) when none is truthy. */
  function FirstTruthy(cands: seq<JsValue>, last: JsValue): (r: JsValue)
    ensures (forall i :: 0 <= i < |cands| ==> !Truthy(cands[i])) ==> r == last
    ensures forall i :: 0 <= i < |cands| && Truthy(cands[i]) && (forall j :: 0 <= j < i ==> !Truthy(cands[j])) ==> r == cands[i]
    ensures r in cands || r == last
  {
    if |cands| == 0 then last
    else if Truthy(cands[0]) then cands[0]
    else FirstTruthy(cands[1..], last)
  }

  /** Converting `v` to a primitive (for `==` against a string, or for a
      template literal `${v}`) throws a TypeError. A JSON object has no
      functions, so an own `toString` key hides the inherited method
      behind a value that cannot be called, and the conversion then runs
      out of methods; any other object converts to "[object Object]". An
      array converts by joining its elements, so it throws when one of
      them does. */
  predicate ConversionThrows(v: JsValue) {
    match v
    case Obj(fields) => "toString" in fields
    case Arr(elems) => exists i :: 0 <= i < |elems| && ConversionThrows(elems[i])
    case _ => false
  }

  /** `v == "ok"` under JavaScript's loose equality, for a `v` whose
      conversion does not throw. A string compares by content; an array
      is first converted to a primitive, which joins its elements with
      commas (`null` and `undefined` elements become empty), so only a
      one-element array whose element itself converts to "ok" qualifies;
      numbers and booleans compare against NaN; a plain object becomes
      "[object Object]"; `null` and `undefined` equal only each other. */
  predicate LooselyEqualsOk(v: JsValue) {
    match v
    case Str(s) => s == "ok"
    case Arr(elems) => |elems| == 1 && LooselyEqualsOk(elems[0])
    case _ => false
  }

  /** A value equal to "ok" converted without throwing. */
  lemma {:induction false} OkDoesNotThrow(v: JsValue)
    ensures LooselyEqualsOk(v) ==> !ConversionThrows(v)
  {
    match v
    case Arr(elems) =>
      if |elems| == 1 {
        OkDoesNotThrow(elems[0]);
      }
    case _ =>
  }
}

=== FILE: portal.dfy ===
/** The requests the program sends to a game's developer portal: one POST
    per endpoint, with the JSON body the program builds for it. */
module Portal {
  import opened Wrappers
  import opened JsValues
  import opened Games
  import IpList

  /** The account the program registers on every portal: the fake name,
      the temporary mailbox's address, and the password. */
  datatype Identity = Identity(name: string, email: string, password: string)

  /** A POST to `url` with a JSON `body` and, when set, a `Cookie` header. */
  datatype Request = Post(url: string, body: JsValue, cookie: Option<string>)

  const RegisterPath := "/api/register"
  const VerifyPath := "/api/verify"
  const LoginPath := "/api/login"
  const ApiKeyPath := "/api/apikey/create"

  /** `${gamesDomains[game]}<path>` */
  function Endpoint(game: string, path: string): string {
    BaseUrl(game) + path
  }

  /** `{ name, email, captchaVerified: true }` */
  function RegisterRequest(game: string, id: Identity): (r: Request)
    ensures r.url == Endpoint(game, RegisterPath) && r.cookie.None?
    ensures r.body.Obj? && "name" in r.body.fields && "email" in r.body.fields && "captchaVerified" in r.body.fields && |r.body.fields| == 3
    ensures Prop(r.body, "email") == Str(id.email) && Prop(r.body, "name") == Str(id.name)
    ensures Prop(r.body, "captchaVerified") == Bool(true)
    ensures Prop(r.body, "password") == Undefined
  {
    Post(Endpoint(game, RegisterPath),
         Obj(map["name" := Str(id.name), "email" := Str(id.email), "captchaVerified" := Bool(true)]),
         None)
  }

  /** `{ token, password, tcAccepted: true }` */
  function VerifyRequest(game: string, token: string, id: Identity): (r: Request)
    ensures r.url == Endpoint(game, VerifyPath) && r.cookie.None?
    ensures r.body.Obj? && "token" in r.body.fields && "password" in r.body.fields && "tcAccepted" in r.body.fields && |r.body.fields| == 3
    ensures Prop(r.body, "token") == Str(token) && Prop(r.body, "password") == Str(id.password)
    ensures Prop(r.body, "tcAccepted") == Bool(true)
    ensures Prop(r.body, "email") == Undefined
  {
    Post(Endpoint(game, VerifyPath),
         Obj(map["token" := Str(token), "password" := Str(id.password), "tcAccepted" := Bool(true)]),
         None)
  }

  /** `{ email, password }` */
  function LoginRequest(game: string, id: Identity): (r: Request)
    ensures r.url == Endpoint(game, LoginPath) && r.cookie.None?
    ensures r.body.Obj? && "email" in r.body.fields && "password" in r.body.fields && |r.body.fields| == 2
    ensures Prop(r.body, "email") == Str(id.email) && Prop(r.body, "password") == Str(id.password)
    ensures Prop(r.body, "token") == Undefined && Prop(r.body, "name") == Undefined
  {
    Post(Endpoint(game, LoginPath),
         Obj(map["email" := Str(id.email), "password" := Str(id.password)]),
         None)
  }

  /** The `Cookie` header built from `headers: { "Cookie": loginCookie }`.
      `headers.get("set-cookie")` gives `null` when the login reply set no
      cookie, and a header value is converted to a string, so the header
      is then the text "null". */
  function CookieHeader(loginCookie: Option<string>): (h: string)
    ensures loginCookie.Some? ==> h == loginCookie.value
    ensures loginCookie.None? ==> h == "null"
  {
    match loginCookie
    case Some(c) => c
    case None => "null"
  }

  /** The `cidrRanges` array: the trimmed comma-separated pieces of the
      whitelisted-IP answer, as JSON strings. */
  function RangesJson(ips: string): (v: JsValue)
    ensures v.Arr? && |v.elems| == |IpList.CidrRanges(ips)|
    ensures forall k :: 0 <= k < |v.elems| ==> v.elems[k] == Str(IpList.CidrRanges(ips)[k])
  {
    var r := IpList.CidrRanges(ips);
    Arr(seq(|r|, k requires 0 <= k < |r| => Str(r[k])))
  }

  /** `{ name: "generated", description: "no description provided",
      scopes: null, cidrRanges }`, sent with the login cookie. */
  function ApiKeyRequest(game: string, ips: string, loginCookie: Option<string>): (r: Request)
    ensures r.url == Endpoint(game, ApiKeyPath)
    ensures r.cookie.Some? && (loginCookie.Some? ==> r.cookie.value == loginCookie.value)
    ensures loginCookie.None? ==> r.cookie == Some("null")
    ensures r.body.Obj? && "name" in r.body.fields && "description" in r.body.fields && "scopes" in r.body.fields && "cidrRanges" in r.body.fields && |r.body.fields| == 4
    ensures Prop(r.body, "name") == Str("generated") && Prop(r.body, "description") == Str("no description provided")
    ensures Prop(r.body, "scopes") == Null
    ensures Prop(r.body, "cidrRanges").Arr? && |Prop(r.body, "cidrRanges").elems| == |IpList.CidrRanges(ips)|
    ensures forall k :: 0 <= k < |IpList.CidrRanges(ips)| ==> Prop(r.body, "cidrRanges").elems[k] == Str(IpList.CidrRanges(ips)[k])
  {
    Post(Endpoint(game, ApiKeyPath), Obj(KeyBody(RangesJson(ips))), Some(CookieHeader(loginCookie)))
  }

  /** The fields of the key request's body around a given `cidrRanges`. */
  function KeyBody(ranges: JsValue): (b: map<string, JsValue>)
    ensures "name" in b && "description" in b && "scopes" in b && "cidrRanges" in b && |b| == 4
    ensures b["name"] == Str("generated") && b["description"] == Str("no description provided")
    ensures b["scopes"] == Null && b["cidrRanges"] == ranges
  {
    map["name" := Str("generated"), "description" := Str("no description provided"),
        "scopes" := Null, "cidrRanges" := ranges]
  }

  /** Each request body has exactly the fields the program writes, no
      more. */
  lemma BodiesHaveExactlyTheirFields(game: string, token: string, ips: string, loginCookie: Option<string>, id: Identity)
    ensures RegisterRequest(game, id).body.fields.Keys == {"name", "email", "captchaVerified"}
    ensures VerifyRequest(game, token, id).body.fields.Keys == {"token", "password", "tcAccepted"}
    ensures LoginRequest(game, id).body.fields.Keys == {"email", "password"}
    ensures ApiKeyRequest(game, ips, loginCookie).body.fields.Keys == {"name", "description", "scopes", "cidrRanges"}
  {
  }

  /** The header cannot tell a login reply with no cookie from one whose
      cookie is the text "null"; any two other cookies stay apart. */
  lemma CookieHeaderConflatesNull(a: Option<string>, b: Option<string>)
    ensures CookieHeader(a) == CookieHeader(b) <==>
              a == b || (a.None? && b == Some("null")) || (a == Some("null") && b.None?)
  {
  }

  /** One account throughout: the login request repeats the e-mail address
      of the register request and the password of the verify request. */
  lemma OneAccountThroughout(game: string, token: string, id: Identity)
    ensures RegisterRequest(game, id).body.fields["email"] == LoginRequest(game, id).body.fields["email"] == Str(id.email)
    ensures VerifyRequest(game, token, id).body.fields["password"] == LoginRequest(game, id).body.fields["password"]
            == Str(id.password)
  {
  }

  /** The four endpoints the program posts to are four different URLs of
      the game's domain. */
  lemma {:induction false} EndpointsDistinct(game: string, p: string, q: string)
    requires p in [RegisterPath, VerifyPath, LoginPath, ApiKeyPath]
    requires q in [RegisterPath, VerifyPath, LoginPath, ApiKeyPath]
    requires p != q
    ensures Endpoint(game, p)[..|BaseUrl(game)|] == BaseUrl(game)
    ensures Endpoint(game, p) != Endpoint(game, q)
  {
    var b := BaseUrl(game);
    assert RegisterPath[5] == 'r' && VerifyPath[5] == 'v' && LoginPath[5] == 'l' && ApiKeyPath[5] == 'a';
    assert |p| > 5 && |q| > 5 && p[5] != q[5];
    assert (b + p)[|b| + 5] == p[5];
    assert (b + q)[|b| + 5] == q[5];
    assert (b + p)[..|b|] == b;
  }
}

=== FILE: registration.dfy ===
/** The registration loop of `main`: one register request per selected
    game, in order, each followed by a two-second pause, with a rejected
    reply reported and the loop carried on. */
module Registration {
  import opened Wrappers
  import opened JsValues
  import opened Responses
  import opened Portal

  /** The pause between two register requests, in milliseconds. */
  const Spacing := 2000

  /** What the loop does, in order: send a request, log a rejected
      reply for a game, or pause. */
  datatype Action = Send(request: Request) | Logged(game: string, diagnostic: JsValue) | Delay(ms: nat)

  /** How the loop ends: after the last game; with an exception that
      rejects `main()` (the reply failed or the guard threw); or waiting
      for a reply that has not arrived. */
  datatype End = Finished | Crashed | Waiting

  datatype Trace = Trace(actions: seq<Action>, end: End)

  /** The requests among the actions, in order. */
  function Sent(actions: seq<Action>): (r: seq<Request>)
    ensures |r| <= |actions|
  {
    if |actions| == 0 then []
    else if actions[0].Send? then [actions[0].request] + Sent(actions[1..])
    else Sent(actions[1..])
  }

  lemma {:induction false} SentAppend(a: seq<Action>, b: seq<Action>)
    ensures Sent(a + b) == Sent(a) + Sent(b)
  {
    if |a| == 0 {
      assert a + b == b;
    } else {
      assert (a + b)[0] == a[0];
      assert (a + b)[1..] == a[1..] + b;
      SentAppend(a[1..], b);
    }
  }

  /** `a` is an initial part of `b`. */
  predicate IsPrefix(a: seq<Request>, b: seq<Request>) {
    |a| <= |b| && b[..|a|] == a
  }

  /** The register requests for `games`, in order. */
  function RegisterRequests(games: seq<string>, id: Identity): (r: seq<Request>)
    ensures |r| == |games|
    ensures forall k :: 0 <= k < |games| ==> r[k] == RegisterRequest(games[k], id)
  {
    seq(|games|, k requires 0 <= k < |games| => RegisterRequest(games[k], id))
  }

  /** Every request but the first comes right after a pause. */
  predicate PausedBetween(actions: seq<Action>) {
    forall k :: 0 < k < |actions| && actions[k].Send? ==> actions[k - 1].Delay? && actions[k - 1].ms == Spacing
  }

  /** What a register request's `await` and the guard after it leave:
      `None` when the wrapper rejected, otherwise the guard's verdict. */
  function Check(f: Option<Fetched>): (c: Option<Verdict>)
    ensures c.None? <==> f.None?
    ensures c.Some? ==> c.value == Classify(f.value.json)
  {
    match f
    case None => None
    case Some(x) => Some(Classify(x.json))
  }

  /** Whether the loop goes on past a request: the `await` settled and the
      guard did not throw. */
  predicate Survives(c: Option<Verdict>) {
    c.Some? && !c.value.Threw?
  }

  /** The steps of one round: the request, a report if the reply was
      rejected, and the pause. */
  function Round(game: string, id: Identity, v: Verdict): (r: seq<Action>)
    requires !v.Threw?
    ensures |r| >= 2 && r[0] == Send(RegisterRequest(game, id)) && r[|r| - 1] == Delay(Spacing)
    ensures v.Rejected? <==> |r| == 3
    ensures v.Rejected? ==> r[1] == Logged(game, v.diagnostic)
    ensures Sent(r) == [RegisterRequest(game, id)]
    ensures forall k :: 0 < k < |r| ==> !r[k].Send?
  {
    var req := Send(RegisterRequest(game, id));
    if v.Rejected? then
      var r := [req, Logged(game, v.diagnostic), Delay(Spacing)];
      assert r[1..][1..][1..] == [];
      assert Sent(r[1..][1..]) == [];
      assert Sent(r[1..]) == [];
      r
    else
      var r := [req, Delay(Spacing)];
      assert r[1..][1..] == [];
      r
  }

  /** `for (var game of GAMES_LIST) { ... }` over what each register
      request settled to, in order. */
  function Submit(games: seq<string>, id: Identity, checks: seq<Option<Verdict>>): (t: Trace)
    decreases |games|
    ensures IsPrefix(Sent(t.actions), RegisterRequests(games, id))
    ensures t.end.Finished? <==> |checks| >= |games| && forall k :: 0 <= k < |games| ==> Survives(checks[k])
    ensures t.end.Finished? ==> Sent(t.actions) == RegisterRequests(games, id)
    ensures !t.end.Finished? ==> |Sent(t.actions)| >= 1
    ensures PausedBetween(t.actions)
    ensures |t.actions| > 0 ==> t.actions[0].Send?
  {
    if |games| == 0 then Trace([], Finished)
    else
      var req := RegisterRequest(games[0], id);
      if |checks| == 0 then Trace([Send(req)], Waiting)
      else if !Survives(checks[0]) then Trace([Send(req)], Crashed)
      else
        var round := Round(games[0], id, checks[0].value);
        var rest := Submit(games[1..], id, checks[1..]);
        SubmitStep(games, id, checks, round, rest);
        Trace(round + rest.actions, rest.end)
  }

  /** How one round and the rest of the loop make up the whole trace. */
  lemma {:induction false} SubmitStep(games: seq<string>, id: Identity, checks: seq<Option<Verdict>>, round: seq<Action>, rest: Trace)
    requires |games| > 0 && |checks| > 0 && Survives(checks[0])
    requires |round| >= 2 && round[0] == Send(RegisterRequest(games[0], id)) && round[|round| - 1] == Delay(Spacing)
    requires Sent(round) == [RegisterRequest(games[0], id)]
    requires forall k :: 0 < k < |round| ==> !round[k].Send?
    requires IsPrefix(Sent(rest.actions), RegisterRequests(games[1..], id))
    requires rest.end.Finished? <==> |checks[1..]| >= |games[1..]| && forall k :: 0 <= k < |games[1..]| ==> Survives(checks[1..][k])
    requires rest.end.Finished? ==> Sent(rest.actions) == RegisterRequests(games[1..], id)
    requires PausedBetween(rest.actions)
    requires |rest.actions| > 0 ==> rest.actions[0].Send?
    ensures IsPrefix(Sent(round + rest.actions), RegisterRequests(games, id))
    ensures rest.end.Finished? <==> |checks| >= |games| && forall k :: 0 <= k < |games| ==> Survives(checks[k])
    ensures rest.end.Finished? ==> Sent(round + rest.actions) == RegisterRequests(games, id)
    ensures PausedBetween(round + rest.actions)
  {
    var all := RegisterRequests(games, id);
    var tail := RegisterRequests(games[1..], id);
    assert all == [all[0]] + tail;
    SentAppend(round, rest.actions);
    var n := |Sent(rest.actions)|;
    assert Sent(round + rest.actions) == [all[0]] + tail[..n];
    assert ([all[0]] + tail)[..n + 1] == [all[0]] + tail[..n];
    if |checks| >= |games| && forall k :: 0 <= k < |games| ==> Survives(checks[k]) {
      forall k | 0 <= k < |games[1..]|
        ensures Survives(checks[1..][k])
      {
        assert checks[1..][k] == checks[k + 1];
      }
    }
    if rest.end.Finished? {
      forall k | 0 <= k < |games|
        ensures Survives(checks[k])
      {
        if k > 0 {
          assert checks[k] == checks[1..][k - 1];
        }
      }
    }
    var a := round + rest.actions;
    forall k | 0 < k < |a| && a[k].Send?
      ensures a[k - 1].Delay? && a[k - 1].ms == Spacing
    {
      if k == |round| {
        assert a[k - 1] == round[|round| - 1];
      } else if k > |round| {
        assert a[k] == rest.actions[k - |round|];
        assert a[k - 1] == rest.actions[k - 1 - |round|];
      }
    }
  }

  /** What the register replies settle to through the intended wrapper. */
  function Checks(replies: seq<Reply>): (c: seq<Option<Verdict>>)
    ensures |c| == |replies|
    ensures forall k :: 0 <= k < |c| ==> (Survives(c[k]) <==> replies[k].Reply? && !Classify(Decode(replies[k].body)).Threw?)
    ensures forall k :: 0 <= k < |c| ==> c[k] == Check(Fetch(replies[k]))
  {
    seq(|replies|, k requires 0 <= k < |replies| => Check(Fetch(replies[k])))
  }

  /** What the register replies settle to through the wrapper as written. */
  function ChecksAsWritten(replies: seq<Reply>): (c: seq<Option<Verdict>>)
    ensures |c| == |replies|
    ensures forall k :: 0 <= k < |c| ==> NonJson(replies[k]) ==> c[k].None?
    ensures forall k :: 0 <= k < |c| ==> !NonJson(replies[k]) ==> c[k] == Check(Fetch(replies[k]))
  {
    seq(|replies|, k requires 0 <= k < |replies| => Check(FetchAsWritten(replies[k])))
  }

  /** The registration loop against the register replies, through the
      intended wrapper: it finishes exactly when every reply arrives and
      no guard throws. */
  function Register(games: seq<string>, id: Identity, replies: seq<Reply>): (t: Trace)
    ensures t.end.Finished? <==>
              |replies| >= |games| && forall k :: 0 <= k < |games| ==> replies[k].Reply? && !Classify(Decode(replies[k].body)).Threw?
    ensures t.end.Finished? ==> Sent(t.actions) == RegisterRequests(games, id)
    ensures PausedBetween(t.actions)
  {
    Submit(games, id, Checks(replies))
  }

  /** The registration loop through the wrapper as written: a register
      reply that is not JSON also ends `main()`. */
  function RegisterAsWritten(games: seq<string>, id: Identity, replies: seq<Reply>): (t: Trace)
    ensures t.end.Finished? <==>
              && |replies| >= |games|
              && forall k :: 0 <= k < |games| ==>
                   replies[k].Reply? && !NonJson(replies[k]) && !Classify(Decode(replies[k].body)).Threw?
    ensures t.end.Finished? ==> Sent(t.actions) == RegisterRequests(games, id)
    ensures PausedBetween(t.actions)
  {
    var c := ChecksAsWritten(replies);
    forall k | 0 <= k < |c|
      ensures Survives(c[k]) <==> replies[k].Reply? && !NonJson(replies[k]) && !Classify(Decode(replies[k].body)).Threw?
    {
      if !NonJson(replies[k]) {
        assert c[k] == Check(Fetch(replies[k]));
      }
    }
    Submit(games, id, c)
  }

  /** The loop after its first round: the rest of the replies answer the
      rest of the games. */
  lemma ChecksTail(replies: seq<Reply>)
    requires |replies| > 0
    ensures Checks(replies)[1..] == Checks(replies[1..])
  {
    assert forall k :: 0 <= k < |replies| - 1 ==> replies[1..][k] == replies[k + 1];
  }

  /** A rejected register reply is reported and the loop goes on to the
      next game. */
  lemma RejectedReplyReported(games: seq<string>, id: Identity, replies: seq<Reply>)
    requires |games| > 0 && |replies| > 0
    requires replies[0].Reply? && Classify(Decode(replies[0].body)).Rejected?
    ensures var rest := Register(games[1..], id, replies[1..]);
            && Register(games, id, replies).actions
               == [Send(RegisterRequest(games[0], id)), Logged(games[0], Classify(Decode(replies[0].body)).diagnostic),
                   Delay(Spacing)] + rest.actions
            && Register(games, id, replies).end == rest.end
  {
    ChecksTail(replies);
    assert Checks(replies)[0] == Some(Classify(Decode(replies[0].body)));
  }

  /** An "ok" register reply is passed over silently. */
  lemma AcceptedReplySilent(games: seq<string>, id: Identity, replies: seq<Reply>)
    requires |games| > 0 && |replies| > 0
    requires replies[0].Reply? && Classify(Decode(replies[0].body)).Ok?
    ensures var rest := Register(games[1..], id, replies[1..]);
            && Register(games, id, replies).actions == [Send(RegisterRequest(games[0], id)), Delay(Spacing)] + rest.actions
            && Register(games, id, replies).end == rest.end
  {
    ChecksTail(replies);
    assert Checks(replies)[0] == Some(Classify(Decode(replies[0].body)));
  }

  /** A register reply whose guard throws, or a request that fails,
      rejects `main()`: nothing after that request happens. */
  lemma ThrowingReplyCrashes(games: seq<string>, id: Identity, replies: seq<Reply>)
    requires |games| > 0 && |replies| > 0
    requires replies[0].NetworkError? || Classify(Decode(replies[0].body)).Threw?
    ensures Register(games, id, replies) == Trace([Send(RegisterRequest(games[0], id))], Crashed)
  {
    assert !Survives(Checks(replies)[0]);
  }

  /** As written, a register reply that is not JSON, an "ok" text
      included, rejects `main()` right after its request. */
  lemma NonJsonReplyCrashesAsWritten(games: seq<string>, id: Identity, replies: seq<Reply>)
    requires |games| > 0 && |replies| > 0 && NonJson(replies[0])
    ensures RegisterAsWritten(games, id, replies) == Trace([Send(RegisterRequest(games[0], id))], Crashed)
  {
    assert ChecksAsWritten(replies)[0].None?;
  }

  /** While the portal answers in JSON, the loop as written is the loop
      modelled. */
  lemma {:induction false} RegisterAgreesAsWritten(games: seq<string>, id: Identity, replies: seq<Reply>)
    requires forall k :: 0 <= k < |replies| ==> !NonJson(replies[k])
    ensures RegisterAsWritten(games, id, replies) == Register(games, id, replies)
  {
    var a := ChecksAsWritten(replies);
    var b := Checks(replies);
    assert forall k :: 0 <= k < |a| ==> a[k] == b[k];
    assert a == b;
  }
}

=== FILE: responses.dfy ===
/** What the program makes of a portal reply: the body decoding done by its
    `fetch` wrapper, the success test and diagnostic written after every
    request, and the key read out of the last one. */
module Responses {
  import opened Wrappers
  import opened JsValues

  /** A reply body as it arrives: none at all (a null body), or text that
      parses as JSON to `parsed`, or does not (`parsed == None`). */
  datatype RawBody = NoBody | Body(text: string, parsed: Option<JsValue>)

  /** How `_fetch` settles: rejected (network failure, a URL it cannot
      parse), or a response with its body and its `set-cookie` header. */
  datatype Reply = NetworkError | Reply(body: RawBody, setCookie: Option<string>)

  /** The wrapper's result `{ json, cookies }`. */
  datatype Fetched = Fetched(json: JsValue, cookies: Option<string>)

  /** `v?.status?.message` */
  function StatusMessage(v: JsValue): JsValue {
    Prop(Prop(v, "status"), "message")
  }

  /** `{ status: { message: text } }`, the wrapper's stand-in for a body
      that is not JSON. */
  function Fallback(text: string): (v: JsValue)
    ensures v.Obj? && StatusMessage(v) == Str(text)
  {
    Obj(map["status" := Obj(map["message" := Str(text)])])
  }

  /** The text of a body; a null body reads as the empty string. */
  function TextOf(b: RawBody): string {
    match b
    case NoBody => ""
    case Body(t, _) => t
  }

  // ---- the wrapper as written: `data.json()`, then `data.text()` on failure

  /** Whether the body stream has been read. Reading a body marks it
      disturbed, and a disturbed body cannot be read again (the "consume
      body" algorithm of the Fetch Standard rejects with a TypeError). A
      null body is never disturbed. */
  datatype BodyState = Unread | Disturbed

  /** `data.json()`: the parsed value, or `None` for a rejection, and the
      body state afterwards. A null body reads as no bytes, which is not
      JSON. */
  function ReadJson(b: RawBody, st: BodyState): (Option<JsValue>, BodyState) {
    if st == Disturbed then (None, Disturbed)
    else match b
      case NoBody => (None, Unread)
      case Body(_, p) => (p, Disturbed)
  }

  /** `data.text()`: the text, or `None` for a rejection. */
  function ReadText(b: RawBody, st: BodyState): Option<string> {
    if st == Disturbed then None else Some(TextOf(b))
  }

  /** The `try { json() } catch { text() }` of the wrapper, `None` when the
      wrapper itself rejects: a JSON body gives its value, a null body the
      fallback object around the empty text, and any other body makes
      the wrapper reject. */
  function DecodeAsWritten(b: RawBody): (r: Option<JsValue>)
    ensures r.None? <==> b.Body? && b.parsed.None?
    ensures b.Body? && b.parsed.Some? ==> r == b.parsed
    ensures b.NoBody? ==> r.Some? && r.value.Obj? && StatusMessage(r.value) == Str("")
  {
    var (j, st) := ReadJson(b, Unread);
    if j.Some? then j
    else match ReadText(b, st)
      case Some(t) => Some(Fallback(t))
      case None => None
  }

  /** As written, a body that is not JSON never reaches the fallback: the
      failed `json()` has already read it, so `text()` rejects and the
      wrapper throws. The fallback is only ever built for a null body. */
  lemma NonJsonBodyRejectsAsWritten(t: string)
    ensures DecodeAsWritten(Body(t, None)) == None
    ensures DecodeAsWritten(NoBody) == Some(Fallback(""))
  {
  }

  // ---- the wrapper as intended: one read, the fallback for non-JSON text

  /** The body decoding the wrapper intends: the parsed JSON, or else the
      fallback object holding the body's text. */
  function Decode(b: RawBody): (v: JsValue)
    ensures b.Body? && b.parsed.Some? ==> v == b.parsed.value
    ensures (b.NoBody? || b.parsed.None?) ==> v.Obj? && StatusMessage(v) == Str(TextOf(b))
  {
    match b
    case Body(_, Some(p)) => p
    case _ => Fallback(TextOf(b))
  }

  /** The intended decoding agrees with the wrapper as written wherever
      the latter settles, and the latter fails exactly on non-JSON text. */
  lemma DecodeAgreesAsWritten(b: RawBody)
    ensures DecodeAsWritten(b).Some? ==> DecodeAsWritten(b) == Some(Decode(b))
    ensures DecodeAsWritten(b).None? <==> b.Body? && b.parsed.None?
  {
  }

  /** The wrapper `fetch(url, options)`: `None` when `_fetch` rejects,
      otherwise the decoded body and the `set-cookie` header. */
  function Fetch(r: Reply): (f: Option<Fetched>)
    ensures f.None? <==> r.NetworkError?
    ensures f.Some? ==> f.value.json == Decode(r.body) && f.value.cookies == r.setCookie
  {
    match r
    case NetworkError => None
    case Reply(b, c) => Some(Fetched(Decode(b), c))
  }

  /** A reply that arrived with a body that is not JSON: the case where
      the wrapper as written and the intended one part ways. */
  predicate NonJson(r: Reply) {
    r.Reply? && r.body.Body? && r.body.parsed.None?
  }

  /** The wrapper as written: it rejects when `_fetch` rejects and also on
      every reply whose body is not JSON; otherwise it settles as the
      intended wrapper does. */
  function FetchAsWritten(r: Reply): (f: Option<Fetched>)
    ensures f.None? <==> r.NetworkError? || NonJson(r)
    ensures f.Some? ==> f == Fetch(r)
  {
    match r
    case NetworkError => None
    case Reply(b, c) =>
      DecodeAgreesAsWritten(b);
      match DecodeAsWritten(b)
      case None => None
      case Some(v) => Some(Fetched(v, c))
  }

  // ---- the success test and the diagnostic

  /** What the program decides about a decoded reply: go on with `json`,
      report `diagnostic` and stop, or throw a TypeError. */
  datatype Verdict = Ok(json: JsValue) | Rejected(diagnostic: JsValue) | Threw

  /** `r.description || r.error || r?.status?.message || r?.status || r`:
      the first truthy of the four fields, or the response itself. */
  function Diagnostic(v: JsValue): (d: JsValue)
    ensures Truthy(v) ==> Truthy(d)
    ensures d == v || Truthy(d)
    ensures Truthy(Prop(v, "description")) ==> d == Prop(v, "description")
    ensures !Truthy(Prop(v, "description")) && Truthy(Prop(v, "error")) ==> d == Prop(v, "error")
    ensures (!Truthy(Prop(v, "description")) && !Truthy(Prop(v, "error")) && Truthy(StatusMessage(v)))
            ==> d == StatusMessage(v)
    ensures (!Truthy(Prop(v, "description")) && !Truthy(Prop(v, "error")) && !Truthy(StatusMessage(v))
             && Truthy(Prop(v, "status"))) ==> d == Prop(v, "status")
    ensures (!Truthy(Prop(v, "description")) && !Truthy(Prop(v, "error")) && !Truthy(StatusMessage(v))
             && !Truthy(Prop(v, "status"))) ==> d == v
  {
    var cands := [Prop(v, "description"), Prop(v, "error"), StatusMessage(v), Prop(v, "status")];
    var d := FirstTruthy(cands, v);
    assert cands[0] == Prop(v, "description") && cands[1] == Prop(v, "error");
    assert cands[2] == StatusMessage(v) && cands[3] == Prop(v, "status");
    d
  }

  /** The `console.error` branch: writing the diagnostic into the message
      converts it to a string, which throws for an unconvertible value. */
  function Report(v: JsValue): (r: Verdict)
    ensures r.Rejected? || r.Threw?
  {
    var d := Diagnostic(v);
    if ConversionThrows(d) then Threw else Rejected(d)
  }

  /** `r.error || r.description`: the reply names an error outright. */
  predicate Flagged(v: JsValue) {
    Truthy(Prop(v, "error")) || Truthy(Prop(v, "description"))
  }

  /** The guard `r.error || r.description || r?.status?.message != "ok"`,
      evaluated left to right with JavaScript's short circuit. Reading
      `.error` of `null` throws; the loose comparison, reached only when
      the reply is not flagged, throws when the message cannot be
      converted. */
  function Classify(v: JsValue): (r: Verdict)
    ensures r.Ok? <==> !Nullish(v) && !Flagged(v) && LooselyEqualsOk(StatusMessage(v))
    ensures r.Ok? ==> r.json == v && v.Obj?
    ensures r.Rejected? ==> r.diagnostic == Diagnostic(v) && !ConversionThrows(r.diagnostic)
    ensures r.Threw? <==> || Nullish(v)
                          || (!Flagged(v) && ConversionThrows(StatusMessage(v)))
                          || (!r.Ok? && ConversionThrows(Diagnostic(v)))
  {
    if Nullish(v) then Threw
    else if Flagged(v) then Report(v)
    else if ConversionThrows(StatusMessage(v)) then
      OkDoesNotThrow(StatusMessage(v));
      Threw
    else if LooselyEqualsOk(StatusMessage(v)) then
      MessageNeedsObject(v);
      Ok(v)
    else Report(v)
  }

  /** Only an object has a `status` whose `message` can equal "ok". */
  lemma MessageNeedsObject(v: JsValue)
    requires LooselyEqualsOk(StatusMessage(v))
    ensures v.Obj?
  {
  }

  /** `key?.key || key || r`: the key the program prints at the end. */
  function ExtractKey(v: JsValue): (k: JsValue)
    ensures Truthy(v) ==> Truthy(k)
    ensures k == v || Truthy(k)
    ensures Truthy(Prop(Prop(v, "key"), "key")) ==> k == Prop(Prop(v, "key"), "key")
    ensures !Truthy(Prop(Prop(v, "key"), "key")) && Truthy(Prop(v, "key")) ==> k == Prop(v, "key")
    ensures !Truthy(Prop(Prop(v, "key"), "key")) && !Truthy(Prop(v, "key")) ==> k == v
  {
    var cands := [Prop(Prop(v, "key"), "key"), Prop(v, "key")];
    assert cands[0] == Prop(Prop(v, "key"), "key") && cands[1] == Prop(v, "key");
    FirstTruthy(cands, v)
  }

  // ---- properties relating the pieces

  /** A body that is not JSON succeeds exactly when its text is "ok";
      otherwise the text itself, or for an empty text the `status` object,
      is the diagnostic. */
  lemma {:induction false} NonJsonVerdict(t: string)
    ensures Classify(Decode(Body(t, None))) == Ok(Fallback(t)) <==> t == "ok"
    ensures t != "ok" && t != "" ==> Classify(Decode(Body(t, None))) == Rejected(Str(t))
    ensures t == "" ==> Classify(Decode(Body(t, None))) == Rejected(Obj(map["message" := Str("")]))
  {
    var v := Fallback(t);
    assert Prop(v, "error") == Undefined && Prop(v, "description") == Undefined;
    assert Prop(v, "status") == Obj(map["message" := Str(t)]);
    assert StatusMessage(v) == Str(t);
  }

  /** A JSON string body never succeeds, even "ok": a string has no
      `status`. Only the wrapper's fallback turns a bare "ok" into success. */
  lemma JsonStringNeverSucceeds(t: string)
    ensures !Classify(Decode(Body("\"" + t + "\"", Some(Str(t))))).Ok?
  {
  }

  /** The diagnostic of any object reply is truthy: the report always has
      something to say. */
  lemma ObjectDiagnosticTruthy(v: JsValue)
    requires v.Obj?
    ensures Truthy(Diagnostic(v))
  {
  }

  /** The key printed after a successful reply is never falsy. */
  lemma SuccessKeyTruthy(v: JsValue)
    requires Classify(v).Ok?
    ensures Truthy(ExtractKey(v))
  {
  }

  /** The portal's answer `{ status: { message: "ok" }, key: { key: k } }`
      yields `k`. */
  lemma NestedKeyExtracted(k: string)
    requires k != ""
    ensures ExtractKey(Obj(map["status" := Obj(map["message" := Str("ok")]), "key" := Obj(map["key" := Str(k)])]))
         == Str(k)
  {
    var v := Obj(map["status" := Obj(map["message" := Str("ok")]), "key" := Obj(map["key" := Str(k)])]);
    assert Prop(v, "key") == Obj(map["key" := Str(k)]);
  }

  /** A flat key `{ key: k }` is printed as it is: a string has no `key`. */
  lemma FlatKeyExtracted(k: string)
    requires k != ""
    ensures ExtractKey(Obj(map["key" := Str(k)])) == Str(k)
  {
    assert Prop(Obj(map["key" := Str(k)]), "key") == Str(k);
  }

  /** A one-element array holding "ok" passes the loose comparison. */
  lemma WrappedOkSucceeds()
    ensures Classify(Obj(map["status" := Obj(map["message" := Arr([Str("ok")])])])).Ok?
  {
    var v := Obj(map["status" := Obj(map["message" := Arr([Str("ok")])])]);
    assert Prop(v, "status") == Obj(map["message" := Arr([Str("ok")])]);
    assert StatusMessage(v) == Arr([Str("ok")]);
  }

  /** A `null` reply makes the guard throw. */
  lemma NullReplyThrows()
    ensures Classify(Null) == Threw
  {
  }
}

=== FILE: session.dfy ===
/** The `arrive` handler end to end: a mail is either ignored or starts the
    activation chain for the game and token it names. */
module Session {
  import opened Wrappers
  import opened JsValues
  import opened JsStrings
  import opened Games
  import opened Correlator
  import opened Responses
  import opened Portal
  import opened Activation

  /** One arriving mail: correlated, then, for an event, the verify, login
      and key requests against that game's portal. */
  function HandleArrival(m: Message, id: Identity, ips: string, replies: seq<Reply>): (r: Option<Run>)
    ensures !Contains(m.subject, WelcomeMarker) ==> r.None?
    ensures r.Some? <==> Correlate(m).Some?
  {
    match Correlate(m)
    case None => None
    case Some(e) => Some(RunPipeline(e, id, ips, replies))
  }

  /** The handler as written: the correlator as written, and the wrapper
      as written. An "Unknown game" event has no domain, so the verify URL
      is the relative "undefined/api/verify"; the URL parser of the WHATWG
      URL Standard fails on it without a base, so the one fetch call made,
      the verify call, rejects before anything reaches the network and the
      handler aborts at the verify stage. */
  function HandleArrivalAsWritten(m: Message, id: Identity, ips: string, replies: seq<Reply>): (r: Option<Run>)
    ensures !Contains(m.subject, WelcomeMarker) ==> r.None?
    ensures r.Some? <==> CorrelateAsWritten(m).Some?
    ensures Correlate(m).Some? ==> r == Some(RunPipelineAsWritten(Correlate(m).value, id, ips, replies))
    ensures CorrelateAsWritten(m).Some? && Correlate(m).None? ==>
              && CorrelateAsWritten(m).value.game == UnknownGame
              && r == Some(Run([VerifyRequest(UnknownGame, CorrelateAsWritten(m).value.token, id)], Aborted(Verifying)))
  {
    match CorrelateAsWritten(m)
    case None => None
    case Some(e) =>
      if Domain(e.game).None? then Some(Run([VerifyRequest(e.game, e.token, id)], Aborted(Verifying)))
      else Some(RunPipelineAsWritten(e, id, ips, replies))
  }

  /** The handler as written and the one modelled agree on every mail of
      a game of the domain table, and on every mail that is ignored, as
      long as the portal answers in JSON. */
  lemma ArrivalAgreesAsWritten(m: Message, id: Identity, ips: string, replies: seq<Reply>)
    requires forall k :: 0 <= k < |replies| ==> !NonJson(replies[k])
    ensures Correlate(m).Some? || CorrelateAsWritten(m).None? ==>
              HandleArrivalAsWritten(m, id, ips, replies) == HandleArrival(m, id, ips, replies)
  {
    if Correlate(m).Some? {
      RunAgreesAsWritten(Correlate(m).value, id, ips, replies);
    }
  }

  /** The verify request of a registry game goes to that game's domain
      and carries the token. */
  lemma VerifyTargetsDomain(e: ActivationEvent, id: Identity)
    requires Domain(e.game).Some?
    ensures VerifyRequest(e.game, e.token, id).url == Domain(e.game).value + VerifyPath
    ensures VerifyRequest(e.game, e.token, id).body.fields["token"] == Str(e.token)
  {
  }

  /** A mail that correlates starts the chain: its first request is the
      verify POST to the named game's own domain, carrying the token read
      from the link. */
  lemma ArrivalVerifiesAtDomain(m: Message, id: Identity, ips: string, replies: seq<Reply>)
    ensures Correlate(m).Some? ==>
              var e := Correlate(m).value;
              && HandleArrival(m, id, ips, replies) == Some(RunPipeline(e, id, ips, replies))
              && Domain(e.game).Some?
              && RunPipeline(e, id, ips, replies).requests[0].url == Domain(e.game).value + VerifyPath
              && RunPipeline(e, id, ips, replies).requests[0].body.fields["token"] == Str(e.token)
  {
    if Correlate(m).Some? {
      var e := Correlate(m).value;
      assert HandleArrival(m, id, ips, replies) == Some(RunPipeline(e, id, ips, replies));
      VerifyTargetsDomain(e, id);
    }
  }

  /** A reply body that decodes to `{ status: { message: "ok" } }` plus
      the given fields. */
  function OkJson(extra: map<string, JsValue>): JsValue {
    Obj(extra["status" := Obj(map["message" := Str("ok")])])
  }

  lemma OkJsonPasses(extra: map<string, JsValue>)
    requires "error" !in extra && "description" !in extra
    ensures Classify(OkJson(extra)) == Ok(OkJson(extra))
  {
    var v := OkJson(extra);
    assert Prop(v, "error") == Undefined && Prop(v, "description") == Undefined;
    assert Prop(v, "status") == Obj(map["message" := Str("ok")]);
  }

  /** A reply whose body decodes to an "ok" object passes its guard and
      hands on that object and its cookie. */
  lemma OkReplyPasses(extra: map<string, JsValue>, cookie: Option<string>)
    requires "error" !in extra && "description" !in extra
    ensures Settle(Reply(Body("{}", Some(OkJson(extra))), cookie)) == Passed(OkJson(extra), cookie)
  {
    OkJsonPasses(extra);
    SettleMeans(Reply(Body("{}", Some(OkJson(extra))), cookie));
  }

  /** Three "ok" replies, a session cookie on the login reply and
      `{ key: { key: k } }` on the last: the chain issues exactly the three
      planned requests, the last carrying that cookie, and prints `k`. */
  lemma {:induction false} ThreeOksSucceed(e: ActivationEvent, id: Identity, ips: string, cookie: string, key: string)
    requires key != ""
    ensures RunPipeline(e, id, ips,
                        [Reply(Body("{}", Some(OkJson(map[]))), None),
                         Reply(Body("{}", Some(OkJson(map[]))), Some(cookie)),
                         Reply(Body("{}", Some(OkJson(map["key" := Obj(map["key" := Str(key)])]))), None)])
         == Run([VerifyRequest(e.game, e.token, id), LoginRequest(e.game, id), ApiKeyRequest(e.game, ips, Some(cookie))],
                Succeeded(Str(key)))
  {
    var keyed := map["key" := Obj(map["key" := Str(key)])];
    var r0 := Reply(Body("{}", Some(OkJson(map[]))), None);
    var r1 := Reply(Body("{}", Some(OkJson(map[]))), Some(cookie));
    var r2 := Reply(Body("{}", Some(OkJson(keyed))), None);
    OkReplyPasses(map[], None);
    OkReplyPasses(map[], Some(cookie));
    OkReplyPasses(keyed, None);
    var last := OkJson(keyed);
    assert Prop(last, "key") == Obj(map["key" := Str(key)]);
    assert ExtractKey(last) == Str(key);
    var s := Settlements([r0, r1, r2]);
    assert s[1].cookies == Some(cookie) && s[2].json == last;
    ThreePassesSucceed(e, id, ips, s);
  }

  /** Three passing replies whose last yields a printable key take the
      chain through all three requests to that key. */
  lemma ThreePassesSucceed(e: ActivationEvent, id: Identity, ips: string, s: seq<Settled>)
    requires |s| == 3 && s[0].Passed? && s[1].Passed? && s[2].Passed?
    requires !ConversionThrows(ExtractKey(s[2].json))
    ensures Chain(e, id, ips, s)
         == Run([VerifyRequest(e.game, e.token, id), LoginRequest(e.game, id), ApiKeyRequest(e.game, ips, s[1].cookies)],
                Succeeded(ExtractKey(s[2].json)))
  {
  }

  /** A Clash of Clans welcome mail answered that way ends with `k`
      printed after the verify, login and key requests to the Clash of
      Clans portal. */
  lemma {:induction false} ClashOfClansActivation(subject: string, prefix: string, token: string, tail: string,
                                                  id: Identity, ips: string, cookie: string, key: string)
    requires Contains(subject, WelcomeMarker)
    requires !Contains(prefix, LinkPrefix)
    requires IsPlainToken(token)
    requires key != ""
    ensures HandleArrival(Message(subject, Some(prefix + BaseUrl(ClashOfClans) + "/#/verify/" + token + "\"" + tail)), id, ips,
                          [Reply(Body("{}", Some(OkJson(map[]))), None),
                           Reply(Body("{}", Some(OkJson(map[]))), Some(cookie)),
                           Reply(Body("{}", Some(OkJson(map["key" := Obj(map["key" := Str(key)])]))), None)])
         == Some(Run([VerifyRequest(ClashOfClans, token, id), LoginRequest(ClashOfClans, id),
                      ApiKeyRequest(ClashOfClans, ips, Some(cookie))],
                     Succeeded(Str(key))))
  {
    RegisteredLinkRoundTrip(ClashOfClans, subject, prefix, token, tail);
    ThreeOksSucceed(ActivationEvent(ClashOfClans, token), id, ips, cookie, key);
  }

  /** A mail the correlator as written sends to a portal outside the slug
      table makes the handler as written abort at the verify stage, on
      the URL "undefined/api/verify"; the handler modelled here ignores it. */
  lemma UnknownPortalIgnored(m: Message, id: Identity, ips: string, replies: seq<Reply>)
    ensures CorrelateAsWritten(m).Some? && CorrelateAsWritten(m).value.game == UnknownGame ==>
              && Endpoint(CorrelateAsWritten(m).value.game, VerifyPath) == "undefined/api/verify"
              && HandleArrivalAsWritten(m, id, ips, replies).value.outcome == Aborted(Verifying)
              && HandleArrival(m, id, ips, replies).None?
  {
    UndefinedVerifyUrl();
  }

  /** With no domain for the game, the template literal writes
      "undefined" in front of the path. */
  lemma UndefinedVerifyUrl()
    ensures Domain(UnknownGame).None?
    ensures Endpoint(UnknownGame, VerifyPath) == "undefined/api/verify"
  {
  }
}

=== FILE: wrappers.dfy ===
/** The optional value used throughout the model for JavaScript's `undefined`
    results (a missing array element, a failed search). */
module Wrappers {

  datatype Option<+T> = None | Some(value: T)
}
